=== FILE: README.md ===
# Voting kiosk: session machine, roster and tally in Dafny

A model of the two pure cores of a school-election kiosk, with proofs about them.

The first core is the **vote-session machine** of `voting_machine.py`:
- Staff start a session.
- While the session is active, each key-down on the student keyboard may record one vote for the candidate its key is bound to.
- The vote that fills the sixth and last position schedules a delayed finalize.
- The finalize commits the ballot as one row to the main and the backup vote table, then ends the session.
- Ending the session counts the student in the total and in the current session ("Session N") of the roster, and rewrites the roster file.
- Staff can also reset, open a new session, or stop the program.

The second core is the **tally** of `result.py`:
- It reads every vote-table row under the position header.
- It counts one vote per non-blank cell.
- It lists each position's candidates by count, largest first.
- It names the sole winner or the tied leaders.

The model is purely functional. It has these modules:
- `Wrappers`: `Option` and `Result`.
- `Ballot`: the six positions, the key table, the scratch row and the committed row.
- `Roster`: sessions, counts and total; loading and saving the roster file.
- `Machine`: the kiosk state, one function per operation, and `Step`/`Run` over a closed `Event` type.
- `MachineInvariants`: invariants of reachable states and of whole runs.
- `Tally`: counters, the tally, the winners and the listing.
- `LedgerTally`: where the two cores meet.
- `Scenarios`: concrete runs.

Files are in-memory values:
- A vote table is a `seq<seq<string>>` whose first row is the header.
- The scratch file is an `Option<seq<string>>`.
- The roster file is an `Option<seq<seq<int>>>`. A session name "Session N" is its number N; the program keeps names as strings, which differs only for hand-edited names (see "## Left out").

Python exceptions become `Result` failures. The staff PIN prompts become an `authorized` flag on the events they guard. The delayed callback is modelled this way:
- The state keeps a `pending` count of scheduled callbacks.
- A `Finalize` event fires one callback.
- A callback carries no session identity, as in the source.

In these places the model follows the code, which differs from what one might expect:
- **No key-up re-arm.** The handler sees key-downs only, so releasing a key does nothing. The same key counts again only after a different key has been pressed in between.
- **`last_key` is overwritten by every key-down while voting is active.** This includes unbound keys and keys whose position is already filled.
- **`start_voting` does not clear `last_key`.** In the program this is never observable: every return to idle clears `last_key` (voting_machine.py:376 and 468), and the Start button is disabled while voting (voting_machine.py:263). Only in the model, whose events are not gated by button state, can Start arrive while voting is already active; it then keeps the last key, so a first press of that same key is not counted.
- **A partial ballot is never committed with blanks.** Reset, stop or close with some but not all positions filled makes `_finalize_votes` raise `KeyError` on the first missing position. This happens before any file is opened. Reset then changes nothing. Stop and close do not exit.
- **A callback carries no session identity.** A scheduled finalize that fires when the ballot is empty or partial (it was already committed by a reset, or a new ballot is under way) raises `KeyError`, and only the callback itself is used up. A stale callback that fires once a newer ballot is complete commits that newer ballot; the newer ballot's own callback then finds an empty ballot and fails.

## Model

| member | source | states |
|---|---|---|
| Ballot.MappingFacts | voting_machine.py:34-59 | The six positions are distinct. Every key binds a non-blank candidate to one of them. Every position has at least one key. |
| Ballot.CompleteIffFull | voting_machine.py:314-328 | For a ballot whose keys are positions, the handler's count test `len(votes) == len(POSITIONS)` holds exactly when every position has a vote. A ballot never holds more than six votes. |
| Ballot.ScratchRow | voting_machine.py:340 | One cell per position, in column order. The ballot is read back from it by `ScratchRowRoundTrip`. |
| Ballot.FinalRow | voting_machine.py:346 | One cell per position, in column order. `FinalRowIsBallot` proves it blank-free, bound, equal to the scratch row, and read back as the ballot. |
| Ballot.ScratchRowRoundTrip | voting_machine.py:338-342 | The scratch row is position-ordered with blanks for open positions. Reading its non-blank cells back under the header gives back exactly the ballot. |
| Ballot.FinalRowIsBallot | voting_machine.py:344-349 | The committed row of a complete ballot has no blank cell, holds in each column a candidate bound to that position, reads back as the ballot, and equals the last scratch row. |
| Roster.PairRows | voting_machine.py:87-91 | Only rows of exactly two cells are read. A row is kept exactly when it is in the file and has two cells. A file whose every row is a pair is read whole. |
| Roster.PairRowsAppend | voting_machine.py:91 | Filtering keeps file order: the pair rows of two concatenated parts are those of the first part followed by those of the second. |
| Roster.ReadPairs | voting_machine.py:94-98 | The sessions read are the rows' names in file order, each with a count. `ReadPairsReads` pins the counts (last row wins) and the total (an independent sum of the count cells). |
| Roster.ReadPairsReads | voting_machine.py:94-98 | For any file, there is a count for exactly the names read. Each session's count is the count cell of the last row naming it. The total is the sum of every row's count cell, computed by an independent sum. |
| Roster.Load | voting_machine.py:87-110 | With no file, or no pair row in it, the roster is Session 1 alone with count 0 and total 0. Otherwise the roster is never empty. |
| Roster.LoadValid | voting_machine.py:94-104 | Loading a file with increasing session numbers gives a valid roster: the file's sessions in order with their counts, the total equal to their sum, and then one new current session. |
| Roster.NewSession | voting_machine.py:207-211 | The new session is numbered last + 1, has count 0 and becomes current. Every existing session keeps its count, and the total is unchanged. |
| Roster.NewSessionValid | voting_machine.py:207-211 | Opening a session keeps the roster valid: numbers still increase, and the total is still the sum of the counts. |
| Roster.CountStudent | voting_machine.py:472-476 | The total and the current session's count each grow by exactly one. No other session's count changes. |
| Roster.CountStudentValid | voting_machine.py:472-476 | Counting a student keeps the total equal to the sum of the session counts. |
| Roster.Save | voting_machine.py:125-129 | One (name, count) row per session, in roster order. `SaveReadsBack` and `SaveLoadRoundTrip` read the rows back as the same roster. |
| Roster.SaveReadsBack | voting_machine.py:125-129 | Reading back the rows written for a valid roster gives its sessions in order, their counts and its total. |
| Roster.SaveLoadRoundTrip | voting_machine.py:94-129 | Saving a valid roster and loading the file at the next start-up restores every session and the total, then opens the next session. |
| Machine.Launch | voting_machine.py:64-117 | A wrong PIN exits. Otherwise voting is idle with an empty ballot and no last key or callback. The roster is the one loaded from the roster file. The scratch record and roster file are left as found. A missing vote table is created holding only the header. |
| Machine.StartVoting | voting_machine.py:256-258 | Voting becomes active with an empty ballot. Nothing else changes, including the last key. |
| Machine.OnKeyPress | voting_machine.py:292-335 | The ballot changes exactly when the handler accepts the key: voting active, a key-down, a key other than the last, a bound key, an open position. An accepted key adds exactly its own entry and rewrites the scratch row. Earlier votes are kept. The last key is set whenever the first two checks pass. At most one callback is scheduled, and only by the vote that makes six. Nothing else changes. |
| Machine.KeyPressWellFormed | voting_machine.py:301-309 | Every recorded vote is a bound candidate of a real position, after any key. |
| Machine.FirstMissing | voting_machine.py:346 | The position the KeyError names is the first position, in column order, that has no vote. |
| Machine.FinalizeVotes | voting_machine.py:344-352 | Succeeds exactly when every position has a vote, and otherwise names a missing position. On success the same row is appended to main and backup, it reads back as the ballot and has no blanks, the scratch record is removed, and nothing else changes. |
| Machine.EndSession | voting_machine.py:454-491 | Voting stops. Ballot and last key are cleared. The student is counted once in the total and the current session. The roster file is rewritten from the new roster. Tables and callbacks are untouched. |
| Machine.FireFinalize | voting_machine.py:329-332 | One callback is used up. A complete ballot is committed to both tables, the scratch record is removed, the student is counted and the roster file rewritten, and the program keeps running. An incomplete ballot leaves everything else as it was. |
| Machine.CleanupSession | voting_machine.py:354-386 | With no ballot under way: idle, empty ballot, no last key, no scratch record, and no table write or count. With one under way: succeeds exactly when the ballot is complete. It then commits the ballot, removes the scratch record, counts the student and rewrites the roster file. No callback is consumed or scheduled. |
| Machine.IncrementSession | voting_machine.py:200-214 | The roster opens the next session and the roster file is rewritten. Nothing else changes. |
| Machine.Shutdown | voting_machine.py:131-146 | As written: a complete ballot under way is committed, the scratch record removed and the roster file saved, but the roster is left as it was. With no ballot under way only the roster file is saved, and the scratch record is left as found. A partial ballot fails and the program keeps running. Nothing else changes. |
| Machine.ShutdownCounted | voting_machine.py:131-146 | Corrected exit: as above, but the committed ballot is also counted and the session ended, so the saved roster includes the student. |
| Machine.Step | voting_machine.py:155-232 | While running, each event runs its handler. Start Voting (no PIN) opens the ballot, and a key goes to the key handler. A pending finalize fires. Reset, New Session and Save & Stop (one event with the window close) run their handlers only with the right PIN; a wrong PIN changes nothing. A handler that raises leaves the state unchanged. After exit nothing happens. `StepValid`, `StepRosterValid` and `StepHistory` prove every event keeps the invariants. |
| MachineInvariants.LaunchValid | voting_machine.py:76-117 | Every start-up state satisfies the ballot invariants. |
| MachineInvariants.KeyPressCompletes | voting_machine.py:305-335 | A key schedules a finalize exactly when it is accepted and completes the ballot. Once the ballot is complete, no key is accepted. |
| MachineInvariants.StepValid | voting_machine.py:256-386 | Every event keeps these invariants: votes are bound candidates; the ballot is empty while idle; a complete ballot always has a callback pending; the scratch row mirrors a ballot under way. |
| MachineInvariants.StepRosterValid | voting_machine.py:454-476 | Every event keeps the total equal to the sum of the session counts, with sessions numbered upwards. |
| MachineInvariants.RunValid | voting_machine.py:292-386 | Along any run, the state invariants hold. Old table rows are kept. Every new row is a complete ballot, written identically to both tables. While running there is exactly one new row per student counted, and after exit at most one more. |
| MachineInvariants.RunRosterValid | voting_machine.py:94-129 | Along any run, the roster stays valid. |
| MachineInvariants.FreshLedgersCountStudents | voting_machine.py:112-117 | From fresh tables: main and backup are identical, the header first, then only complete ballots. While running, there is one ballot per student counted. |
| MachineInvariants.RunCountedExact | voting_machine.py:138-143 | With the corrected exit, the tables hold exactly one ballot per counted student at every point, including after exit. |
| MachineInvariants.PressAllFirstVote | voting_machine.py:297-309 | After a run of key-downs, a position holds the candidate of the first key for it that was not a repeat of the key just before. This is against an independent reference definition. |
| MachineInvariants.PressAllSchedulesOnce | voting_machine.py:327-335 | A run of key-downs schedules one finalize if it completes a ballot that was incomplete, and none otherwise. Never two. |
| MachineInvariants.PressAllKeepsVotes | voting_machine.py:305-306 | Votes already recorded survive any run of key-downs. |
| MachineInvariants.StartThenPress | voting_machine.py:256-335 | After start, any run of key-downs schedules exactly one finalize if it completes the ballot, and none if it does not. |
| MachineInvariants.RunKeyDowns | voting_machine.py:292-299 | While the program runs, a stream of key-down events is the handler applied to each key in order. |
| Tally.Bump | result.py:13 | One more vote for a candidate: its count grows by one, every other count stays, and the position total grows by one. |
| Tally.BumpWellFormed | result.py:12-13 | Bumping a non-blank candidate keeps a counter with every candidate once, none blank, each with a vote. |
| Tally.AddRow | result.py:11-13 | Counting a row bumps exactly the positions whose cell is non-blank, for that cell. Other counters are unchanged. |
| Tally.TallyRows | result.py:10-13 | A position has a counter exactly when some row has a non-blank cell under it. Counts and totals equal the independent `Votes` and `Cast` (`TallyVotes`, `TallySum`). |
| Tally.TallyVotes | result.py:10-13 | A candidate's count under a position is the number of rows naming that candidate there. |
| Tally.TallySum | result.py:19 | A position's total is the number of rows with a non-blank cell under it. |
| Tally.TallyWellFormed | result.py:6-13 | A position is in the tally exactly when some row has a non-blank cell there, so its counter is never empty. Candidates are listed once and never blank. |
| Tally.TallySkipsBlanks | result.py:12 | The blank is never a candidate and never gets a vote. |
| Tally.TallyAdditive | result.py:10-13 | The tally of two tables joined end to end is, per position and candidate, the sum of their tallies. |
| Tally.MaxCount | result.py:24 | The maximum is at least every count and is attained by some candidate. |
| Tally.Winners | result.py:25 | The winners are exactly the candidates at the maximum, and there is at least one. |
| Tally.WinnersAreTop | result.py:24-25 | Every winner's count equals the maximum and is at least every candidate's count. |
| Tally.Decide | result.py:26-29 | A sole winner exactly when one candidate is at the maximum. Otherwise a tie listing all the leaders, at least two. |
| Tally.DecideSoleWinner | result.py:24-29 | A sole winner is reported exactly when one entry attains the maximum and every other count is strictly lower. |
| Tally.MostCommon | result.py:20 | The listing holds every entry of the counter exactly once, ordered by count from most to fewest. |
| Tally.ReportFor | result.py:18-29 | A position's report lists its entries by count. It gives the sum of its counts as the total. It announces the decision on its counter: a sole winner or the tied leaders. |
| Tally.Report | result.py:17-29 | The report has an entry exactly for the positions that received a vote. Each total is the number of rows voting there. Each entry is the report of that position's counter. |
| Tally.ReportWinners | result.py:25-29 | Read against the table: a name is announced for a position exactly when it is a non-blank candidate with votes there and no candidate has more rows naming it. |
| Tally.ReportListing | result.py:20-21 | Every listed entry is a non-blank candidate with its number of rows under the position. Every candidate with a vote there is listed. |
| Tally.DecideDeclares | result.py:24-29 | The announced names, whether a sole winner or a tie, are exactly the candidates with the top count. |
| LedgerTally.RowRecord | result.py:9-11 | A row read under the header maps each position to the cell in its column and holds no other key. |
| LedgerTally.BallotAddsOne | result.py:11-13 | Counting a committed ballot adds one vote to every position, for the candidate in its column, and none elsewhere. |
| LedgerTally.BallotsCast | result.py:10-13 | In a table of committed ballots, every position has a vote in every row, and no other name has any. |
| LedgerTally.TallyMatchesStudents | result.py:8-19 | From start-up with fresh tables, while the program runs, tallying the main table gives each position exactly one vote per student counted. No other column gets a vote. |
| Scenarios.HeldKeyScenario | voting_machine.py:296-306 | "2" records Head Boy. Holding, releasing and pressing "2" again changes nothing. "5" adds Sports Captain - Girl, and the scratch row shows both. "3" for the filled Head Boy is dropped, and so is "2" after it. |
| Scenarios.FullBallotFrom | voting_machine.py:327-335 | From idle, start and six keys, one per position, give a complete ballot with exactly one finalize pending. |
| Scenarios.FinalizeAfterBallot | voting_machine.py:328-335 | When a complete ballot's delayed finalize fires, the ballot is committed as one identical, blank-free row in both tables. The student is counted, the scratch record removed, and the kiosk is idle with nothing scheduled. |
| Scenarios.BallotThenFinalize | voting_machine.py:256-491 | From a fresh start, Start, six keys and the delayed finalize leave each table as the header plus one identical, blank-free ballot row. The student is counted, and the kiosk is idle with no scratch record and nothing scheduled. |
| Scenarios.BallotThenFinalizeCounts | voting_machine.py:472-476 | The same whole vote adds one to the total and one to the session that was current. |
| Scenarios.StopCommitsUncounted | voting_machine.py:138-143 | As written, an authorized exit while a complete ballot waits commits a row and exits without counting the student. |
| Scenarios.StopCommitsCounted | voting_machine.py:138-143 | With the corrected exit, the same stop commits the row and counts the student. |
| Scenarios.StopBeforeFinalizeSkipsCount | voting_machine.py:131-146 | From a fresh start: start, six keys, then stop before the finalize. The tables gain one ballot and the total gains none. |
| Scenarios.StopBeforeFinalizeCounted | voting_machine.py:131-146 | The same run with the corrected exit gains one ballot and one counted student. |

## Left out

- Tkinter windows, labels, progress text, the student symbol screen and image loading: these are display only and change no voting state.
- Button enabling and disabling: every event is allowed in every running state. This over-approximates the reachable states, so every invariant above also holds for the program's own, smaller set of reachable states.
- PIN dialogs: these become the `authorized` flag. A wrong PIN changes nothing.
- Beeps, the keyboard hook and unhook calls, and `os._exit`: the hook is the `active` gate, and exit sets `running` to false, after which no event has an effect.
- `open_test_keyboard` and keyboard_testing.py: diagnostics with no effect on voting state. keyboard_testing.py is not part of this model.
- The 2000 ms delay: only where the `Finalize` event falls among other events matters.
- CSV quoting and parsing:
  - Table rows are already split into cells.
  - The tally's records are `map<string,string>` built from the header.
  - Ragged rows, duplicate header names and the reader's skipping of empty lines are not modelled.
- Roster.Load: a session name is represented by the number it ends with. The program parses a name only for the last session, with `int(name.split()[-1])` (voting_machine.py:100, and again at voting_machine.py:207). Every other name stays a plain string and is written back unchanged (voting_machine.py:129). The model identifies every name with its number, so two spellings that share a number ("Session 3" and "Batch 3") are two sessions in the program but one in the model. A file whose last name does not end in a number, which raises at start-up, is not modelled.
- Roster.Load: counts are taken as already parsed by `int(count)` (voting_machine.py:97-98). A count that does not parse raises at start-up and is not modelled.
- Roster.LoadValid: states validity only for files whose session numbers increase, which is what the program itself writes. A hand-edited file with repeated names is loaded by `Load` but not proved valid.
- Tally.MostCommon: does not state that candidates with equal counts keep their first-seen order.
- Tally.Report: the report is a map, so the order in which positions are printed (first-seen order) is not modelled.
- Tally.Winners: states membership only, not that tied leaders are listed in first-seen order.
- Printing and emoji formatting in result.py.
- Threads: `keyboard.on_press` (voting_machine.py:271) runs `on_key_press` on the hook's listener thread, beside the Tk thread that runs `_end_session` and `_cleanup_session`. The model treats every event as atomic, so a key that passed the active check at voting_machine.py:293 and writes `votes` after voting_machine.py:469 cleared them is not modelled; such an interleaving would leave votes while voting is off, outside `MachineInvariants.Valid`.
- File-system errors: every `open`, write and `os.remove` succeeds in the model. A failing `open` in `_save_temp` (voting_machine.py:341) would abort the handler after the vote is recorded and before the finalize is scheduled (voting_machine.py:328-335), leaving a complete ballot with nothing pending; a failure between the two appends (voting_machine.py:347-349) would leave the main and backup tables different. Neither is modelled.

## Findings

| source | as written | input that shows it | evidently intended | confidence | as-written member | corrected member |
|---|---|---|---|---|---|---|
| voting_machine.py:138-143 | Closing the staff window with the PIN while a complete ballot waits for its delayed finalize commits the ballot to both tables, saves the roster and exits. It never runs `_end_session`, so the student is not counted. Save & Stop (voting_machine.py:222-223) has the same code, but its button is disabled while voting is active. | Start voting, press "2", "5", "9", "\\", "home", "/", then close the window and enter the PIN within 2 s. The tables gain a ballot, the roster total does not. | A committed ballot is also counted, as `_cleanup_session` (voting_machine.py:356-358) does. The vote tables then always hold one ballot per counted student. | medium; not executed | Machine.Shutdown, Scenarios.StopBeforeFinalizeSkipsCount | Machine.ShutdownCounted, MachineInvariants.RunCountedExact, Scenarios.StopBeforeFinalizeCounted |

=== FILE: ballot.dfy ===
/**
 The ballot definition of the kiosk: the fixed, ordered list of positions, the
 key-to-candidate table, and the two row shapes built from a ballot in progress:
 the scratch row (blank for unfilled positions) and the committed row (no blanks).
 */
module Ballot {

  /** What one key votes for: a candidate standing for one position. */
  datatype Binding = Binding(candidate: string, position: string)

  /** The contested positions, in the fixed column order of every ledger row. */
  const Positions: seq<string> := [
    "Head Boy",
    "Sports Captain - Girl",
    "Arts Captain - Boy",
    "Arts Captain - Girl",
    "Co-curricular Activity Monitor - Boy",
    "Co-curricular Activity Monitor - Girl"
  ]

  /** Key name (as the keyboard hook reports it) to the binding it votes for. */
  const KeyMapping: map<string, Binding> := map[
    "2" := Binding("Fahmi Hamdhan", Positions[0]),
    "3" := Binding("Rayan Muhammed VP", Positions[0]),
    "5" := Binding("Bibi Bismil PK", Positions[1]),
    "6" := Binding("Fathima Marwa K", Positions[1]),
    "7" := Binding("Shiya Fathima", Positions[1]),
    "9" := Binding("Fizan E", Positions[2]),
    "0" := Binding("Shahrul Muhammed K", Positions[2]),
    "-" := Binding("Siyan KP", Positions[2]),
    "\\" := Binding("Azaza Subair", Positions[3]),
    "backspace" := Binding("Faiza Firoz K", Positions[3]),
    "home" := Binding("Alhadi Ansad K", Positions[4]),
    "page up" := Binding("Muhammed Adhil", Positions[4]),
    "/" := Binding("Aamiya Jamal", Positions[5]),
    "*" := Binding("Ayisha Nuha K", Positions[5])
  ]

  /** No position name occurs twice in the column order. */
  predicate Distinct(s: seq<string>) {
    forall i, j :: 0 <= i < j < |s| ==> s[i] != s[j]
  }

  /** Some key votes for candidate `c` in position `p`. */
  ghost predicate BoundCandidate(p: string, c: string) {
    exists k :: k in KeyMapping && KeyMapping[k] == Binding(c, p)
  }

  /** A ballot in progress: only real positions, each holding a candidate bound to it. */
  ghost predicate WellFormedVotes(votes: map<string, string>) {
    forall p :: p in votes ==> p in Positions && BoundCandidate(p, votes[p])
  }

  /** Every position has a vote. */
  predicate Complete(votes: map<string, string>) {
    forall p :: p in Positions ==> p in votes
  }

  /** The static facts about the table that the rest of the model relies on. */
  lemma MappingFacts()
    ensures |Positions| == 6 && Distinct(Positions)
    ensures forall k :: k in KeyMapping ==> KeyMapping[k].position in Positions
    ensures forall k :: k in KeyMapping ==> KeyMapping[k].candidate != ""
    ensures forall i :: 0 <= i < |Positions| ==> exists k :: k in KeyMapping && KeyMapping[k].position == Positions[i]
  {
    PositionsDistinct();
    BindingsInPositions();
    CandidatesNamed();
    EveryPositionBound();
  }

  /** The six positions are distinct. */
  lemma PositionsDistinct()
    ensures |Positions| == 6 && Distinct(Positions)
  {
  }

  /** Every binding names one of the positions. */
  lemma BindingsInPositions()
    ensures forall k :: k in KeyMapping ==> KeyMapping[k].position in Positions
  {
  }

  /** No binding names a blank candidate. */
  lemma CandidatesNamed()
    ensures forall k :: k in KeyMapping ==> KeyMapping[k].candidate != ""
  {
  }

  /** Every position has at least one key. */
  lemma EveryPositionBound()
    ensures forall i :: 0 <= i < |Positions| ==> exists k :: k in KeyMapping && KeyMapping[k].position == Positions[i]
  {
    assert KeyMapping["2"].position == Positions[0];
    assert KeyMapping["5"].position == Positions[1];
    assert KeyMapping["9"].position == Positions[2];
    assert KeyMapping["\\"].position == Positions[3];
    assert KeyMapping["home"].position == Positions[4];
    assert KeyMapping["/"].position == Positions[5];
  }

  /** An empty ballot is not complete. */
  lemma EmptyIncomplete()
    ensures !Complete(map[])
  {
    var empty: map<string, string> := map[];
    assert Positions[0] !in empty;
  }

  /** Cardinality of the keys of a map whose keys are drawn from a list of distinct names. */
  lemma {:induction false} CoverageByCount(keys: set<string>, ps: seq<string>)
    requires Distinct(ps)
    requires forall p :: p in keys ==> p in ps
    ensures |keys| <= |ps|
    ensures |keys| == |ps| <==> forall p :: p in ps ==> p in keys
    decreases |ps|
  {
    if |ps| == 0 {
      assert keys == {};
    } else {
      var last := ps[|ps| - 1];
      var init := ps[..|ps| - 1];
      var rest := keys - {last};
      DropLast(keys, ps);
      CoverageByCount(rest, init);
      if last in keys {
        assert |keys| == |rest| + 1;
      } else {
        assert rest == keys;
      }
    }
  }

  /** Taking the last name off the list takes it out of the keys, and nothing else. */
  lemma DropLast(keys: set<string>, ps: seq<string>)
    requires Distinct(ps) && |ps| > 0
    requires forall p :: p in keys ==> p in ps
    ensures var init := ps[..|ps| - 1];
      && Distinct(init) && ps[|ps| - 1] !in init && ps == init + [ps[|ps| - 1]]
      && forall p :: p in keys - {ps[|ps| - 1]} ==> p in init
  {
    var last := ps[|ps| - 1];
    var init := ps[..|ps| - 1];
    forall p | p in keys - {last} ensures p in init {
      var i :| 0 <= i < |ps| && ps[i] == p;
      assert init[i] == p;
    }
  }

  /**
   A ballot whose keys are positions is complete exactly when it holds one vote
   per position, which is the count test the key handler performs.
   */
  lemma CompleteIffFull(votes: map<string, string>)
    requires forall p :: p in votes ==> p in Positions
    ensures |votes| <= |Positions|
    ensures |votes| == |Positions| <==> Complete(votes)
  {
    MappingFacts();
    CoverageByCount(votes.Keys, Positions);
  }

  /**
   The scratch row written after every accepted vote: one cell per position in
   column order, the candidate voted for or blank when the position is still open.
   */
  function ScratchRow(votes: map<string, string>): (row: seq<string>)
    ensures |row| == |Positions|
  {
    seq(|Positions|, i requires 0 <= i < |Positions| =>
      if Positions[i] in votes then votes[Positions[i]] else "")
  }

  /** The committed row: the vote of every position in column order. */
  function FinalRow(votes: map<string, string>): (row: seq<string>)
    requires Complete(votes)
    ensures |row| == |Positions|
  {
    seq(|Positions|, i requires 0 <= i < |Positions| => votes[Positions[i]])
  }

  /** A row that can be committed: one non-blank candidate bound to each position. */
  ghost predicate BallotRow(row: seq<string>) {
    |row| == |Positions| &&
    forall i :: 0 <= i < |row| ==> row[i] != "" && BoundCandidate(Positions[i], row[i])
  }

  /** The votes a row records under column names `ps`: every non-blank cell under its column. */
  function VotesUnder(ps: seq<string>, row: seq<string>): (votes: map<string, string>)
    requires Distinct(ps) && |row| == |ps|
    ensures forall p :: p in votes ==> p in ps
  {
    map i | 0 <= i < |ps| && row[i] != "" :: ps[i] := row[i]
  }

  /** The votes a row of the ledger records. */
  function RowVotes(row: seq<string>): (votes: map<string, string>)
    requires |row| == |Positions|
    ensures forall p :: p in votes ==> p in Positions
  {
    MappingFacts();
    VotesUnder(Positions, row)
  }

  /** The row records exactly this ballot: one cell per position, read back as the ballot. */
  predicate Records(row: seq<string>, votes: map<string, string>) {
    |row| == |Positions| && RowVotes(row) == votes
  }

  /** A bound candidate belongs to a real position and is never blank. */
  lemma BoundIsNonBlank(p: string, c: string)
    requires BoundCandidate(p, c)
    ensures p in Positions && c != ""
  {
    MappingFacts();
    var k :| k in KeyMapping && KeyMapping[k] == Binding(c, p);
  }

  /** Reading back a row written in column order `ps` from non-blank votes gives the votes. */
  lemma VotesUnderRoundTrip(ps: seq<string>, votes: map<string, string>)
    requires Distinct(ps)
    requires forall p :: p in votes ==> p in ps && votes[p] != ""
    ensures VotesUnder(ps, seq(|ps|, i requires 0 <= i < |ps| => if ps[i] in votes then votes[ps[i]] else "")) == votes
  {
    var row := seq(|ps|, i requires 0 <= i < |ps| => if ps[i] in votes then votes[ps[i]] else "");
    var back := VotesUnder(ps, row);
    forall p | p in votes
      ensures p in back && back[p] == votes[p]
    {
      var i :| 0 <= i < |ps| && ps[i] == p;
      assert row[i] == votes[p];
    }
    forall p | p in back
      ensures p in votes
    {
      var i :| 0 <= i < |ps| && row[i] != "" && ps[i] == p;
    }
  }

  /**
   The scratch row loses nothing: the ballot in progress can be read back from it,
   because no bound candidate is blank.
   */
  lemma ScratchRowRoundTrip(votes: map<string, string>)
    requires WellFormedVotes(votes)
    ensures RowVotes(ScratchRow(votes)) == votes
  {
    MappingFacts();
    forall p | p in votes
      ensures p in Positions && votes[p] != ""
    {
      BoundIsNonBlank(p, votes[p]);
    }
    VotesUnderRoundTrip(Positions, votes);
  }

  /**
   A complete, well-formed ballot commits a blank-free row holding a bound candidate
   for every position, and the ballot can be read back from that row.
   */
  lemma FinalRowIsBallot(votes: map<string, string>)
    requires WellFormedVotes(votes) && Complete(votes)
    ensures BallotRow(FinalRow(votes))
    ensures Records(FinalRow(votes), votes)
    ensures FinalRow(votes) == ScratchRow(votes)
  {
    FinalRowCells(votes);
    ScratchRowRoundTrip(votes);
  }

  /** The committed row of a complete ballot is its scratch row, with every cell a bound, non-blank candidate. */
  lemma FinalRowCells(votes: map<string, string>)
    requires WellFormedVotes(votes) && Complete(votes)
    ensures BallotRow(FinalRow(votes))
    ensures FinalRow(votes) == ScratchRow(votes)
  {
    var row := FinalRow(votes);
    forall i | 0 <= i < |row|
      ensures row[i] != "" && BoundCandidate(Positions[i], row[i])
    {
      BoundIsNonBlank(Positions[i], votes[Positions[i]]);
    }
  }
}

=== FILE: ledger_tally.dfy ===
/**
 Where the two cores meet: the vote table the kiosk writes is the table the tally
 reads. The first row is the header (the positions in column order) and every later
 row is read as a record from position to cell. Every row the kiosk commits is a
 complete ballot, so each one adds exactly one vote to every position.
 */
module LedgerTally {
  import opened Wrappers
  import opened Ballot
  import Tally
  import Machine
  import MachineInvariants

  /** A table row read under the position header: the cell of each column the row has. */
  function RowRecord(row: seq<string>): (r: Tally.Record)
    ensures forall p :: p in r ==> p in Positions
    ensures forall i :: 0 <= i < |Positions| && i < |row| ==> Positions[i] in r && r[Positions[i]] == row[i]
  {
    MappingFacts();
    map i | 0 <= i < |Positions| && i < |row| :: Positions[i] := row[i]
  }

  /** The records of the rows after the header. */
  function TableRecords(rows: seq<seq<string>>): (r: seq<Tally.Record>)
    ensures |r| == |rows|
    ensures forall i :: 0 <= i < |rows| ==> r[i] == RowRecord(rows[i])
  {
    seq(|rows|, i requires 0 <= i < |rows| => RowRecord(rows[i]))
  }

  /** A committed ballot row gives every position a non-blank cell and nothing else. */
  lemma BallotRecord(row: seq<string>)
    requires BallotRow(row)
    ensures forall p :: p in RowRecord(row) <==> p in Positions
    ensures forall p :: p in Positions ==> RowRecord(row)[p] != ""
  {
    forall p | p in Positions ensures p in RowRecord(row) && RowRecord(row)[p] != "" {
      var i :| 0 <= i < |Positions| && Positions[i] == p;
    }
  }

  /**
   Counting one committed ballot adds exactly one vote to every position (for the
   candidate in its column) and touches no other name.
   */
  lemma BallotAddsOne(t: Tally.Tally, row: seq<string>)
    requires BallotRow(row)
    ensures forall p :: Tally.Sum(Tally.Get(Tally.AddRow(t, RowRecord(row)), p)) == Tally.Sum(Tally.Get(t, p)) + (if p in Positions then 1 else 0)
    ensures forall i, x :: 0 <= i < |Positions| ==>
      Tally.CountOf(Tally.Get(Tally.AddRow(t, RowRecord(row)), Positions[i]), x) == Tally.CountOf(Tally.Get(t, Positions[i]), x) + (if x == row[i] then 1 else 0)
  {
    BallotRecord(row);
  }

  /** In a table of committed ballots, every position has a vote in every row, and no other name has any. */
  lemma {:induction false} BallotsCast(rows: seq<seq<string>>, p: string)
    requires forall i :: 0 <= i < |rows| ==> BallotRow(rows[i])
    ensures Tally.Cast(TableRecords(rows), p) == if p in Positions then |rows| else 0
  {
    if |rows| > 0 {
      var init := rows[..|rows| - 1];
      var last := rows[|rows| - 1];
      BallotsCast(init, p);
      TableRecordsSnoc(rows);
      BallotCell(last, p);
    }
  }

  /** The records of a table are the records of all but its last row, then that row's record. */
  lemma TableRecordsSnoc(rows: seq<seq<string>>)
    requires |rows| > 0
    ensures TableRecords(rows)[..|rows| - 1] == TableRecords(rows[..|rows| - 1])
    ensures TableRecords(rows)[|rows| - 1] == RowRecord(rows[|rows| - 1])
  {
  }

  /** A committed ballot row has a non-blank cell under exactly the positions. */
  lemma BallotCell(row: seq<string>, p: string)
    requires BallotRow(row)
    ensures (p in RowRecord(row) && RowRecord(row)[p] != "") <==> p in Positions
  {
    BallotRecord(row);
  }

  /**
   The election totals agree with the roster: from start-up with fresh vote tables,
   at any point while the program runs, tallying the main table gives every position
   one vote per student counted since start-up, and no other column any vote.
   */
  lemma TallyMatchesStudents(rosterFile: Option<seq<seq<int>>>, tempFile: Option<seq<string>>, events: seq<Machine.Event>, p: string)
    ensures
      var s0 := Machine.Launch(true, rosterFile, None, None, tempFile).value;
      var s := Machine.Run(s0, events);
      && |s.main| >= 1 && s.main[0] == Positions
      && var t := Tally.TallyRows(TableRecords(s.main[1..]));
         && (p !in Positions ==> p !in t)
         && (s.running && p in Positions ==> Tally.Sum(Tally.Get(t, p)) == s.roster.total - s0.roster.total)
  {
    var s0 := Machine.Launch(true, rosterFile, None, None, tempFile).value;
    var s := Machine.Run(s0, events);
    MachineInvariants.FreshLedgersCountStudents(rosterFile, tempFile, events);
    var rows := s.main[1..];
    assert forall i :: 0 <= i < |rows| ==> BallotRow(rows[i]) by {
      forall i | 0 <= i < |rows| ensures BallotRow(rows[i]) { assert rows[i] == s.main[i + 1]; }
    }
    BallotsCast(rows, p);
    Tally.TallySum(TableRecords(rows), p);
    Tally.TallyWellFormed(TableRecords(rows), p);
  }
}

=== FILE: machine.dfy ===
/**
 The vote-session state machine of the kiosk: staff start a session, each key-down
 may record one vote, a complete ballot schedules a delayed finalize, and finalize
 commits the ballot to the main and backup ledgers and counts the student. Files are
 in-memory values: each ledger is a list of rows (the first one the header), the
 scratch record is an optional row, and the roster file is an optional list of rows.
 Staff PIN prompts are modelled as an `authorized` flag on the gated events.
 */
module Machine {
  import opened Wrappers
  import opened Ballot
  import Roster

  /** A vote table: a list of rows of cells. */
  type Ledger = seq<seq<string>>

  /** The exception a finalize raises when a position has no vote. */
  datatype Error = KeyError(position: string)

  /**
   The whole kiosk state. `pending` counts the delayed-finalize callbacks that have
   been scheduled and not yet fired; `running` is false once the program has exited.
   */
  datatype State = State(
    active: bool,
    votes: map<string, string>,
    lastKey: Option<string>,
    pending: nat,
    main: Ledger,
    backup: Ledger,
    temp: Option<seq<string>>,
    roster: Roster.Roster,
    rosterFile: Option<seq<Roster.FileRow>>,
    running: bool)

  /**
   What can happen to the kiosk: staff start a session, the keyboard hook reports a
   key event, a scheduled finalize fires, staff reset, open a new session, or stop
   the program (the Save & Stop button and the window close behave alike).
   */
  datatype Event =
    | Start
    | Key(name: string, down: bool)
    | Finalize
    | Reset(authorized: bool)
    | AddSession(authorized: bool)
    | Stop(authorized: bool)

  /** The roster operations used here need a non-empty roster whose sessions all have a count. */
  predicate Usable(r: Roster.Roster) {
    |r.names| > 0 && r.current in r.counts && forall i :: 0 <= i < |r.names| ==> r.names[i] in r.counts
  }

  /**
   Start-up: a wrong PIN exits; otherwise voting is idle, the roster is loaded (with a
   new session opened), and each missing vote table is created holding only the header.
   The scratch record and roster file are left as found.
   */
  function Launch(authorized: bool, rosterFile: Option<seq<Roster.FileRow>>, mainFile: Option<Ledger>,
                  backupFile: Option<Ledger>, tempFile: Option<seq<string>>): (s: Option<State>)
    ensures s.Some? <==> authorized
    ensures s.Some? ==> !s.value.active && s.value.votes == map[] && s.value.lastKey == None
                        && s.value.pending == 0 && s.value.running && Usable(s.value.roster)
    ensures s.Some? ==> s.value.main == (if mainFile.Some? then mainFile.value else [Positions])
    ensures s.Some? ==> s.value.backup == (if backupFile.Some? then backupFile.value else [Positions])
    ensures s.Some? ==> s.value.roster == Roster.Load(rosterFile) && s.value.temp == tempFile && s.value.rosterFile == rosterFile
  {
    if !authorized then None
    else
      var roster := Roster.Load(rosterFile);
      assert Usable(roster) by { LoadUsable(rosterFile); }
      Some(State(
        active := false, votes := map[], lastKey := None, pending := 0,
        main := if mainFile.Some? then mainFile.value else [Positions],
        backup := if backupFile.Some? then backupFile.value else [Positions],
        temp := tempFile, roster := roster, rosterFile := rosterFile, running := true))
  }

  /** Every roster the loader builds is usable. */
  lemma LoadUsable(file: Option<seq<Roster.FileRow>>)
    ensures Usable(Roster.Load(file))
  {
    var rows := if file.Some? then Roster.PairRows(file.value) else [];
    if |rows| > 0 {
      var l := Roster.ReadPairs(rows);
      var r := Roster.Load(file);
      assert r == Roster.NewSession(Roster.Roster(l.names, l.counts, l.names[|l.names| - 1], l.total));
      assert forall i :: 0 <= i < |l.names| ==> l.names[i] in l.counts by {
        forall i | 0 <= i < |l.names| ensures l.names[i] in l.counts {
          assert l.names[i] == rows[i][0];
        }
      }
    }
  }

  /** Start Voting: voting is enabled with an empty ballot; the last key is NOT forgotten. */
  function StartVoting(s: State): (r: State)
    ensures r.active && r.votes == map[]
    ensures r.(active := s.active, votes := s.votes) == s
  {
    s.(active := true, votes := map[])
  }

  /** A key-down that records a vote: all four checks of the key handler pass. */
  predicate Accepts(s: State, name: string, down: bool) {
    && s.active && down
    && s.lastKey != Some(name)
    && name in KeyMapping
    && KeyMapping[name].position !in s.votes
  }

  /**
   The keyboard hook's handler. Outside voting, and for anything but a key-down,
   nothing happens; a repeat of the last key is ignored; otherwise the key becomes
   the last key, and if it is bound to a candidate whose position is still open, the
   vote is recorded, the scratch row rewritten, and, when the ballot now counts one
   vote per position, a finalize is scheduled.
   */
  function OnKeyPress(s: State, name: string, down: bool): (r: State)
    ensures !s.active || !down || s.lastKey == Some(name) ==> r == s
    ensures s.active && down ==> r.lastKey == Some(name)
    ensures r.votes != s.votes <==> Accepts(s, name, down)
    ensures Accepts(s, name, down) ==>
      && r.votes.Keys == s.votes.Keys + {KeyMapping[name].position}
      && r.votes[KeyMapping[name].position] == KeyMapping[name].candidate
      && r.temp == Some(ScratchRow(r.votes))
    ensures !Accepts(s, name, down) ==> r == s.(lastKey := r.lastKey)
    ensures forall p :: p in s.votes ==> p in r.votes && r.votes[p] == s.votes[p]
    ensures r.pending == s.pending || r.pending == s.pending + 1
    ensures r.pending != s.pending ==> Accepts(s, name, down) && |r.votes| == |Positions|
    ensures r == s.(lastKey := r.lastKey, votes := r.votes, temp := r.temp, pending := r.pending)
  {
    if !s.active || !down then s
    else if s.lastKey == Some(name) then s
    else if name !in KeyMapping || KeyMapping[name].position in s.votes then s.(lastKey := Some(name))
    else Record(s.(lastKey := Some(name)), KeyMapping[name])
  }

  /** Records a vote for an open position, rewrites the scratch row, and schedules a finalize on the last one. */
  function Record(s: State, b: Binding): (r: State)
    requires b.position !in s.votes
    ensures r.votes == s.votes[b.position := b.candidate]
    ensures r.temp == Some(ScratchRow(r.votes))
    ensures r.pending == s.pending + (if |r.votes| == |Positions| then 1 else 0)
    ensures r == s.(votes := r.votes, temp := r.temp, pending := r.pending)
  {
    var votes := s.votes[b.position := b.candidate];
    var s1 := s.(votes := votes, temp := Some(ScratchRow(votes)));
    if |votes| == |Positions| then s1.(pending := s1.pending + 1) else s1
  }

  /** A key press keeps every recorded vote a bound candidate of a real position. */
  lemma KeyPressWellFormed(s: State, name: string, down: bool)
    requires WellFormedVotes(s.votes)
    ensures WellFormedVotes(OnKeyPress(s, name, down).votes)
  {
    if Accepts(s, name, down) {
      MappingFacts();
      var b := KeyMapping[name];
      assert BoundCandidate(b.position, b.candidate);
    }
  }

  /** The first position, in column order, that has no vote. */
  function FirstMissing(votes: map<string, string>): (p: string)
    requires !Complete(votes)
    ensures p in Positions && p !in votes
    ensures forall i :: 0 <= i < |Positions| && Positions[i] != p ==> (Positions[i] in votes || exists j :: 0 <= j < i && Positions[j] == p)
  {
    FirstMissingFrom(votes, 0)
  }

  function FirstMissingFrom(votes: map<string, string>, k: nat): (p: string)
    requires k <= |Positions|
    requires exists i :: k <= i < |Positions| && Positions[i] !in votes
    ensures p in Positions[k..] && p !in votes
    ensures forall i :: k <= i < |Positions| && Positions[i] != p ==> (Positions[i] in votes || exists j :: k <= j < i && Positions[j] == p)
    decreases |Positions| - k
  {
    if Positions[k] !in votes then Positions[k] else FirstMissingFrom(votes, k + 1)
  }

  /**
   Commits the ballot: the row of every position's vote, in column order, is appended
   to the main and to the backup ledger and the scratch record is removed. Reading a
   position with no vote raises KeyError before any file is touched.
   */
  function FinalizeVotes(s: State): (r: Result<State, Error>)
    ensures r.Success? <==> Complete(s.votes)
    ensures r.Failure? ==> r.error.position in Positions && r.error.position !in s.votes
    ensures r.Success? ==>
      var t := r.value;
      && |t.main| == |s.main| + 1 && t.main[..|s.main|] == s.main
      && t.backup == s.backup + [t.main[|s.main|]]
      && (WellFormedVotes(s.votes) ==> Records(t.main[|s.main|], s.votes))
      && t.temp == None
      && t == s.(main := t.main, backup := t.backup, temp := None)
    ensures r.Success? && WellFormedVotes(s.votes) ==> BallotRow(r.value.main[|s.main|])
  {
    if Complete(s.votes) then
      var row := FinalRow(s.votes);
      assert WellFormedVotes(s.votes) ==> Records(row, s.votes) && BallotRow(row) by {
        if WellFormedVotes(s.votes) { FinalRowIsBallot(s.votes); }
      }
      assert (s.main + [row])[..|s.main|] == s.main;
      Success(s.(main := s.main + [row], backup := s.backup + [row], temp := None))
    else
      Failure(KeyError(FirstMissing(s.votes)))
  }

  /**
   The bookkeeping after a finalize: voting stops, the ballot and last key are
   cleared, the student is counted in the total and in the current session, and the
   roster file is rewritten.
   */
  function EndSession(s: State): (r: State)
    requires Usable(s.roster)
    ensures !r.active && r.votes == map[] && r.lastKey == None
    ensures r.roster == Roster.CountStudent(s.roster) && Usable(r.roster)
    ensures r.rosterFile == Some(Roster.Save(r.roster))
    ensures r.main == s.main && r.backup == s.backup && r.temp == s.temp
    ensures r.pending == s.pending && r.running == s.running
  {
    var roster := Roster.CountStudent(s.roster);
    s.(active := false, votes := map[], lastKey := None, roster := roster,
       rosterFile := Some(Roster.Save(roster)))
  }

  /**
   The scheduled finalize fires: it commits and ends the session when the ballot is
   complete; when it is not (the ballot was already committed, or a new one is under
   way) the KeyError ends the callback and only the callback itself is used up.
   */
  function FireFinalize(s: State): (r: State)
    requires s.pending > 0 && Usable(s.roster)
    ensures r.pending == s.pending - 1
    ensures Complete(s.votes) ==>
      && |r.main| == |s.main| + 1 && r.main[..|s.main|] == s.main
      && r.backup == s.backup + [r.main[|s.main|]]
      && (WellFormedVotes(s.votes) ==> Records(r.main[|s.main|], s.votes))
      && !r.active && r.votes == map[] && r.lastKey == None
      && r.roster == Roster.CountStudent(s.roster)
      && r.temp == None && r.rosterFile == Some(Roster.Save(r.roster)) && r.running == s.running
    ensures Complete(s.votes) && WellFormedVotes(s.votes) ==> BallotRow(r.main[|s.main|])
    ensures !Complete(s.votes) ==> r == s.(pending := s.pending - 1)
  {
    var s1 := s.(pending := s.pending - 1);
    match FinalizeVotes(s1)
    case Success(t) => EndSession(t)
    case Failure(_) => s1
  }

  /**
   Reset: a session with votes under way is finalized and ended; a KeyError from a
   partial ballot aborts the reset with nothing changed. Otherwise voting stops, the
   ballot and last key are cleared and the scratch record is removed, with no ledger
   write and no count.
   */
  function CleanupSession(s: State): (r: Result<State, Error>)
    requires Usable(s.roster)
    ensures !(s.active && s.votes != map[]) ==>
      && r.Success?
      && !r.value.active && r.value.votes == map[] && r.value.lastKey == None && r.value.temp == None
      && r.value == s.(active := false, votes := map[], lastKey := None, temp := None)
    ensures s.active && s.votes != map[] ==> (r.Success? <==> Complete(s.votes))
    ensures s.active && s.votes != map[] && r.Success? ==>
      && |r.value.main| == |s.main| + 1 && r.value.main[..|s.main|] == s.main
      && r.value.backup == s.backup + [r.value.main[|s.main|]]
      && (WellFormedVotes(s.votes) ==> Records(r.value.main[|s.main|], s.votes))
      && !r.value.active && r.value.votes == map[] && r.value.lastKey == None
      && r.value.roster == Roster.CountStudent(s.roster)
      && r.value.temp == None && r.value.rosterFile == Some(Roster.Save(r.value.roster))
    ensures r.Success? ==> r.value.pending == s.pending && r.value.running == s.running
  {
    if s.active && s.votes != map[] then
      match FinalizeVotes(s)
      case Success(t) => Success(EndSession(t))
      case Failure(e) => Failure(e)
    else
      Success(s.(active := false, votes := map[], lastKey := None, temp := None))
  }

  /** New Session: the roster opens the next session and the roster file is rewritten. */
  function IncrementSession(s: State): (r: State)
    requires Usable(s.roster)
    ensures r.roster == Roster.NewSession(s.roster) && Usable(r.roster)
    ensures r.rosterFile == Some(Roster.Save(r.roster))
    ensures r == s.(roster := r.roster, rosterFile := r.rosterFile)
  {
    var roster := Roster.NewSession(s.roster);
    s.(roster := roster, rosterFile := Some(Roster.Save(roster)))
  }

  /**
   Save & Stop (and closing the window): a session with votes under way is finalized
   (a partial ballot raises KeyError and the program keeps running, unchanged); then
   the roster file is rewritten and the program exits. The student is NOT counted.
   */
  function Shutdown(s: State): (r: Result<State, Error>)
    requires Usable(s.roster)
    ensures s.active && s.votes != map[] ==> (r.Success? <==> Complete(s.votes))
    ensures r.Success? ==> !r.value.running && r.value.rosterFile == Some(Roster.Save(s.roster))
    ensures r.Success? ==> r.value.roster == s.roster
    ensures r.Success? && s.active && s.votes != map[] ==>
      && |r.value.main| == |s.main| + 1 && r.value.main[..|s.main|] == s.main
      && r.value.backup == s.backup + [r.value.main[|s.main|]]
      && (WellFormedVotes(s.votes) ==> Records(r.value.main[|s.main|], s.votes))
    ensures r.Success? && !(s.active && s.votes != map[]) ==> r.value.main == s.main && r.value.backup == s.backup
    ensures r.Success? ==> r.value.temp == (if s.active && s.votes != map[] then None else s.temp)
    ensures r.Success? && s.active && s.votes != map[] ==>
      r.value == s.(main := r.value.main, backup := r.value.backup, temp := None,
                    rosterFile := Some(Roster.Save(s.roster)), running := false)
    ensures r.Success? && !(s.active && s.votes != map[]) ==>
      r.value == s.(rosterFile := Some(Roster.Save(s.roster)), running := false)
  {
    if s.active && s.votes != map[] then
      match FinalizeVotes(s)
      case Success(t) => Success(t.(rosterFile := Some(Roster.Save(t.roster)), running := false))
      case Failure(e) => Failure(e)
    else
      Success(s.(rosterFile := Some(Roster.Save(s.roster)), running := false))
  }

  /**
   Save & Stop as evidently intended: a ballot committed on exit is also counted, as
   every other commit path does, before the roster file is rewritten.
   */
  function ShutdownCounted(s: State): (r: Result<State, Error>)
    requires Usable(s.roster)
    ensures s.active && s.votes != map[] ==> (r.Success? <==> Complete(s.votes))
    ensures r.Success? ==> !r.value.running && Usable(r.value.roster) && r.value.rosterFile == Some(Roster.Save(r.value.roster))
    ensures r.Success? && s.active && s.votes != map[] ==>
      && |r.value.main| == |s.main| + 1 && r.value.main[..|s.main|] == s.main
      && r.value.backup == s.backup + [r.value.main[|s.main|]]
      && (WellFormedVotes(s.votes) ==> Records(r.value.main[|s.main|], s.votes))
      && r.value.roster == Roster.CountStudent(s.roster)
    ensures r.Success? && !(s.active && s.votes != map[]) ==>
      r.value.main == s.main && r.value.backup == s.backup && r.value.roster == s.roster
    ensures r.Success? ==> r.value.temp == (if s.active && s.votes != map[] then None else s.temp)
    ensures r.Success? && s.active && s.votes != map[] ==>
      r.value == s.(active := false, votes := map[], lastKey := None, main := r.value.main, backup := r.value.backup,
                    temp := None, roster := r.value.roster, rosterFile := Some(Roster.Save(r.value.roster)), running := false)
    ensures r.Success? && !(s.active && s.votes != map[]) ==>
      r.value == s.(rosterFile := Some(Roster.Save(s.roster)), running := false)
  {
    if s.active && s.votes != map[] then
      match FinalizeVotes(s)
      case Success(t) =>
        var u := EndSession(t);
        Success(u.(running := false))
      case Failure(e) => Failure(e)
    else
      Success(s.(rosterFile := Some(Roster.Save(s.roster)), running := false))
  }

  /** The outcome of an operation that may raise: an exception leaves the state as it was. */
  function OrUnchanged(s: State, r: Result<State, Error>): State {
    match r
    case Success(t) => t
    case Failure(_) => s
  }

  /**
   One event. After exit nothing happens; a wrong PIN changes nothing; a finalize
   fires only when one was scheduled.
   */
  function Step(s: State, e: Event): (r: State)
    requires Usable(s.roster)
    ensures Usable(r.roster)
    ensures !s.running ==> r == s
    ensures (e.Reset? || e.AddSession? || e.Stop?) && !e.authorized ==> r == s
    ensures e.Finalize? && s.pending == 0 ==> r == s
    ensures e.Reset? && CleanupSession(s).Failure? ==> r == s
    ensures e.Stop? && Shutdown(s).Failure? ==> r == s
    ensures e.Stop? && e.authorized && s.running && Shutdown(s).Success? ==> !r.running
    ensures s.running && e.Start? ==> r == StartVoting(s)
    ensures s.running && e.Key? ==> r == OnKeyPress(s, e.name, e.down)
    ensures s.running && e.Finalize? && s.pending > 0 ==> r == FireFinalize(s)
    ensures s.running && e.Reset? && e.authorized ==> r == OrUnchanged(s, CleanupSession(s))
    ensures s.running && e.AddSession? && e.authorized ==> r == IncrementSession(s)
    ensures s.running && e.Stop? && e.authorized ==> r == OrUnchanged(s, Shutdown(s))
  {
    if !s.running then s
    else
      match e
      case Start => StartVoting(s)
      case Key(name, down) => OnKeyPress(s, name, down)
      case Finalize => if s.pending > 0 then FireFinalize(s) else s
      case Reset(ok) => if ok then OrUnchanged(s, CleanupSession(s)) else s
      case AddSession(ok) => if ok then IncrementSession(s) else s
      case Stop(ok) => if ok then OrUnchanged(s, Shutdown(s)) else s
  }

  /** The state after a sequence of events, in order. */
  function Run(s: State, events: seq<Event>): (r: State)
    requires Usable(s.roster)
    ensures Usable(r.roster)
  {
    if |events| == 0 then s else Step(Run(s, events[..|events| - 1]), events[|events| - 1])
  }

  /** One event, with the exit paths counting the ballot they commit. */
  function StepCounted(s: State, e: Event): (r: State)
    requires Usable(s.roster)
    ensures Usable(r.roster)
    ensures !e.Stop? ==> r == Step(s, e)
  {
    if s.running && e.Stop? && e.authorized then
      match ShutdownCounted(s)
      case Success(t) => t
      case Failure(_) => s
    else Step(s, e)
  }

  /** The state after a sequence of events under `StepCounted`. */
  function RunCounted(s: State, events: seq<Event>): (r: State)
    requires Usable(s.roster)
    ensures Usable(r.roster)
  {
    if |events| == 0 then s else StepCounted(RunCounted(s, events[..|events| - 1]), events[|events| - 1])
  }
}

=== FILE: machine_invariants.dfy ===
/**
 Properties of the vote-session machine over single events and over whole runs:
 the ballot invariants every reachable state keeps, the ledger history (committed
 rows are complete ballots, written identically to both tables, one per counted
 student), first-vote-wins for a run of key presses, and at most one scheduled
 finalize per armed session.
 */
module MachineInvariants {
  import opened Wrappers
  import opened Ballot
  import Roster
  import opened Machine

  /**
   The invariants of a reachable state: the ballot holds only bound candidates of
   real positions, it is empty while voting is off, a complete ballot always has a
   finalize scheduled, and while a ballot is under way the scratch record mirrors it.
   */
  ghost predicate Valid(s: State) {
    && WellFormedVotes(s.votes)
    && (!s.active ==> s.votes == map[])
    && (Complete(s.votes) ==> s.pending > 0)
    && (s.running && s.active && s.votes != map[] ==> s.temp == Some(ScratchRow(s.votes)))
    && Usable(s.roster)
  }

  /** Every state the program starts in is valid. */
  lemma LaunchValid(rosterFile: Option<seq<Roster.FileRow>>, mainFile: Option<Ledger>,
                    backupFile: Option<Ledger>, tempFile: Option<seq<string>>)
    ensures Valid(Launch(true, rosterFile, mainFile, backupFile, tempFile).value)
  {
    MappingFacts();
    EmptyIncomplete();
  }

  /** A key press schedules a finalize exactly when it records the vote that completes the ballot. */
  lemma KeyPressCompletes(s: State, name: string, down: bool)
    requires WellFormedVotes(s.votes)
    ensures OnKeyPress(s, name, down).pending == s.pending + 1 <==> Accepts(s, name, down) && Complete(OnKeyPress(s, name, down).votes)
    ensures Complete(s.votes) ==> !Accepts(s, name, down)
  {
    MappingFacts();
    KeyPressWellFormed(s, name, down);
    var r := OnKeyPress(s, name, down);
    CompleteIffFull(r.votes);
    if Accepts(s, name, down) {
      assert KeyMapping[name].position in Positions;
    }
  }

  /** A key press keeps a valid state valid. */
  lemma KeyValid(s: State, name: string, down: bool)
    requires Valid(s)
    ensures Valid(OnKeyPress(s, name, down))
  {
    KeyPressWellFormed(s, name, down);
    KeyPressCompletes(s, name, down);
  }

  /** A fired finalize keeps a valid state valid. */
  lemma FinalizeValid(s: State)
    requires Valid(s) && s.pending > 0
    ensures Valid(FireFinalize(s))
  {
    EmptyIncomplete();
  }

  /** A reset keeps a valid state valid. */
  lemma ResetValid(s: State)
    requires Valid(s)
    ensures Valid(OrUnchanged(s, CleanupSession(s)))
  {
    EmptyIncomplete();
  }

  /** Every event keeps a valid state valid. */
  lemma StepValid(s: State, e: Event)
    requires Valid(s)
    ensures Valid(Step(s, e))
  {
    if s.running {
      match e
      case Start => EmptyIncomplete();
      case Key(name, down) => KeyValid(s, name, down);
      case Finalize => if s.pending > 0 { FinalizeValid(s); }
      case Reset(ok) => if ok { ResetValid(s); }
      case AddSession(ok) =>
      case Stop(ok) =>
    }
  }

  /** Every event keeps the roster total equal to the sum of the session counts. */
  lemma StepRosterValid(s: State, e: Event)
    requires Usable(s.roster) && Roster.Valid(s.roster)
    ensures Roster.Valid(Step(s, e).roster)
  {
    if s.running {
      match e
      case Finalize =>
        if s.pending > 0 && Complete(s.votes) { Roster.CountStudentValid(s.roster); }
      case Reset(ok) =>
        if ok && s.active && s.votes != map[] && Complete(s.votes) { Roster.CountStudentValid(s.roster); }
      case AddSession(ok) =>
        if ok { Roster.NewSessionValid(s.roster); }
      case _ =>
    }
  }

  /**
   How the ledgers of `s` grew from those of `s0`: the old rows are kept, every new
   row is a complete ballot written to both tables in the same order, and there is
   one new row per counted student, except that exiting may commit one uncounted row.
   */
  ghost predicate History(s0: State, s: State) {
    && |s0.main| <= |s.main| && s.main[..|s0.main|] == s0.main
    && s.backup == s0.backup + s.main[|s0.main|..]
    && (forall i :: |s0.main| <= i < |s.main| ==> BallotRow(s.main[i]))
    && s.roster.total - s0.roster.total <= |s.main| - |s0.main|
    && |s.main| - |s0.main| <= s.roster.total - s0.roster.total + (if s.running then 0 else 1)
  }

  /** Appending one complete ballot to both ledgers extends the history. */
  lemma HistoryAppend(s0: State, s: State, t: State)
    requires History(s0, s)
    requires |t.main| == |s.main| + 1 && t.main[..|s.main|] == s.main
    requires t.backup == s.backup + [t.main[|s.main|]]
    requires BallotRow(t.main[|s.main|])
    ensures |s0.main| <= |t.main| && t.main[..|s0.main|] == s0.main
    ensures t.backup == s0.backup + t.main[|s0.main|..]
    ensures forall i :: |s0.main| <= i < |t.main| ==> BallotRow(t.main[i])
  {
    assert t.main == s.main + [t.main[|s.main|]];
    assert t.main[|s0.main|..] == s.main[|s0.main|..] + [t.main[|s.main|]];
  }

  /** Every event extends the ledger history of a valid state. */
  lemma StepHistory(s0: State, s: State, e: Event)
    requires Valid(s) && History(s0, s)
    ensures History(s0, Step(s, e))
  {
    var r := Step(s, e);
    if s.running {
      match e
      case Start =>
      case Key(name, down) =>
      case Finalize =>
        if s.pending > 0 && Complete(s.votes) {
          HistoryAppend(s0, s, r);
        }
      case Reset(ok) =>
        if ok && s.active && s.votes != map[] && Complete(s.votes) {
          HistoryAppend(s0, s, r);
        }
      case AddSession(ok) =>
      case Stop(ok) =>
        if ok && s.active && s.votes != map[] && Complete(s.votes) {
          HistoryAppend(s0, s, r);
        }
    }
  }

  /** Every state reachable from a valid one is valid and extends its ledger history. */
  lemma {:induction false} RunValid(s0: State, events: seq<Event>)
    requires Valid(s0)
    ensures Valid(Run(s0, events)) && History(s0, Run(s0, events))
  {
    if |events| == 0 {
      assert s0.main[|s0.main|..] == [];
    } else {
      var prefix := events[..|events| - 1];
      RunValid(s0, prefix);
      StepValid(Run(s0, prefix), events[|events| - 1]);
      StepHistory(s0, Run(s0, prefix), events[|events| - 1]);
    }
  }

  /** From a valid roster, the roster stays valid through any run. */
  lemma {:induction false} RunRosterValid(s0: State, events: seq<Event>)
    requires Usable(s0.roster) && Roster.Valid(s0.roster)
    ensures Roster.Valid(Run(s0, events).roster)
  {
    if |events| > 0 {
      RunRosterValid(s0, events[..|events| - 1]);
      StepRosterValid(Run(s0, events[..|events| - 1]), events[|events| - 1]);
    }
  }

  /**
   From start-up with fresh vote tables, at any later point while the program runs,
   each table is the header followed by one complete ballot per student counted.
   */
  lemma FreshLedgersCountStudents(rosterFile: Option<seq<Roster.FileRow>>, tempFile: Option<seq<string>>, events: seq<Event>)
    ensures
      var s0 := Launch(true, rosterFile, None, None, tempFile).value;
      var s := Run(s0, events);
      && s.main == s.backup && |s.main| >= 1 && s.main[0] == Positions
      && (forall i :: 1 <= i < |s.main| ==> BallotRow(s.main[i]))
      && (s.running ==> |s.main| - 1 == s.roster.total - s0.roster.total)
  {
    var s0 := Launch(true, rosterFile, None, None, tempFile).value;
    assert s0.main == [Positions] && s0.backup == [Positions];
    LaunchValid(rosterFile, None, None, tempFile);
    RunValid(s0, events);
    FreshHistory(s0, Run(s0, events));
  }

  /** A ledger history that starts from two header-only tables: the header, then committed ballots, in both. */
  lemma FreshHistory(s0: State, s: State)
    requires History(s0, s) && s0.main == [Positions] && s0.backup == [Positions]
    ensures s.main == s.backup && |s.main| >= 1 && s.main[0] == Positions
    ensures forall i :: 1 <= i < |s.main| ==> BallotRow(s.main[i])
    ensures s.running ==> |s.main| - 1 == s.roster.total - s0.roster.total
  {
    assert s.main == s.main[..1] + s.main[1..];
  }

  // ------------------------------------------------------------ counted exits

  /** Ledger history with one committed row per counted student, exits included. */
  ghost predicate ExactHistory(s0: State, s: State) {
    History(s0, s) && |s.main| - |s0.main| == s.roster.total - s0.roster.total
  }

  /** The counted exit keeps a valid state valid. */
  lemma ShutdownCountedValid(s: State)
    requires Valid(s)
    ensures ShutdownCounted(s).Success? ==> Valid(ShutdownCounted(s).value)
  {
    EmptyIncomplete();
  }

  /** With counted exits, every event keeps the state valid and the history exact. */
  lemma StepCountedHistory(s0: State, s: State, e: Event)
    requires Valid(s) && ExactHistory(s0, s)
    ensures Valid(StepCounted(s, e)) && ExactHistory(s0, StepCounted(s, e))
  {
    var r := StepCounted(s, e);
    if s.running && e.Stop? && e.authorized {
      ShutdownCountedValid(s);
      if s.active && s.votes != map[] && Complete(s.votes) {
        HistoryAppend(s0, s, r);
      }
    } else {
      StepValid(s, e);
      StepHistory(s0, s, e);
    }
  }

  /**
   With counted exits the ledgers hold exactly one committed ballot per counted
   student at every point, whether or not the program has exited.
   */
  lemma {:induction false} RunCountedExact(s0: State, events: seq<Event>)
    requires Valid(s0)
    ensures Valid(RunCounted(s0, events)) && ExactHistory(s0, RunCounted(s0, events))
  {
    if |events| == 0 {
      assert s0.main[|s0.main|..] == [];
    } else {
      var prefix := events[..|events| - 1];
      RunCountedExact(s0, prefix);
      StepCountedHistory(s0, RunCounted(s0, prefix), events[|events| - 1]);
    }
  }

  // ------------------------------------------------------------ key runs

  /** The state after the given keys are each pressed down, in order. */
  function PressAll(s: State, names: seq<string>): (r: State)
    ensures r.active == s.active && r.main == s.main && r.backup == s.backup && r.roster == s.roster
    decreases |names|
  {
    if |names| == 0 then s else PressAll(OnKeyPress(s, names[0], true), names[1..])
  }

  /**
   The reference reading of "first vote wins": the candidate of the first key in the
   run that is bound to position `p` and is not a repeat of the key pressed just
   before it (`prev` for the first key).
   */
  function FirstVote(names: seq<string>, prev: Option<string>, p: string): Option<string> {
    if |names| == 0 then None
    else if Some(names[0]) != prev && names[0] in KeyMapping && KeyMapping[names[0]].position == p
    then Some(KeyMapping[names[0]].candidate)
    else FirstVote(names[1..], Some(names[0]), p)
  }

  /**
   While voting is on, a run of key presses keeps every vote already recorded and fills
   each open position with the first non-repeated key bound to it, and nothing else.
   */
  lemma {:induction false} PressAllFirstVote(s: State, names: seq<string>, p: string)
    requires s.active
    decreases |names|
    ensures p in PressAll(s, names).votes <==> p in s.votes || FirstVote(names, s.lastKey, p).Some?
    ensures p in PressAll(s, names).votes ==>
      PressAll(s, names).votes[p] == if p in s.votes then s.votes[p] else FirstVote(names, s.lastKey, p).value
  {
    if |names| > 0 {
      var s1 := OnKeyPress(s, names[0], true);
      PressAllFirstVote(s1, names[1..], p);
    }
  }

  /**
   A run of key presses schedules one finalize if it completes a ballot that was not
   complete before, and none otherwise: never two.
   */
  lemma {:induction false} PressAllSchedulesOnce(s: State, names: seq<string>)
    requires s.active && WellFormedVotes(s.votes)
    decreases |names|
    ensures PressAll(s, names).pending == s.pending + (if !Complete(s.votes) && Complete(PressAll(s, names).votes) then 1 else 0)
  {
    if |names| > 0 {
      var s1 := OnKeyPress(s, names[0], true);
      KeyPressWellFormed(s, names[0], true);
      KeyPressCompletes(s, names[0], true);
      PressAllSchedulesOnce(s1, names[1..]);
      PressAllKeepsVotes(s1, names[1..]);
    }
  }

  /** Votes already recorded survive any run of key presses. */
  lemma {:induction false} PressAllKeepsVotes(s: State, names: seq<string>)
    ensures forall p :: p in s.votes ==> p in PressAll(s, names).votes && PressAll(s, names).votes[p] == s.votes[p]
    decreases |names|
  {
    if |names| > 0 {
      PressAllKeepsVotes(OnKeyPress(s, names[0], true), names[1..]);
    }
  }

  /**
   An armed session: after Start, any run of key presses schedules exactly one
   finalize when it completes the ballot and none when it does not.
   */
  lemma StartThenPress(s: State, names: seq<string>)
    ensures
      var r := PressAll(StartVoting(s), names);
      r.pending == s.pending + (if Complete(r.votes) then 1 else 0)
  {
    MappingFacts();
    EmptyIncomplete();
    PressAllSchedulesOnce(StartVoting(s), names);
  }
  /** The key-down events for a run of key names. */
  function KeyDowns(names: seq<string>): (r: seq<Event>)
    ensures |r| == |names| && forall i :: 0 <= i < |names| ==> r[i] == Key(names[i], true)
  {
    seq(|names|, i requires 0 <= i < |names| => Key(names[i], true))
  }

  /** Running two event sequences one after the other is running their concatenation. */
  lemma {:induction false} RunAppend(s: State, a: seq<Event>, b: seq<Event>)
    requires Usable(s.roster)
    decreases |b|
    ensures Run(s, a + b) == Run(Run(s, a), b)
  {
    if |b| == 0 {
      assert a + b == a;
    } else {
      var b' := b[..|b| - 1];
      assert (a + b)[..|a + b| - 1] == a + b';
      RunAppend(s, a, b');
    }
  }

  /** While the program runs, a stream of key-downs is exactly the key handler applied in order. */
  lemma {:induction false} RunKeyDowns(s: State, names: seq<string>)
    requires Usable(s.roster) && s.running
    decreases |names|
    ensures Run(s, KeyDowns(names)) == PressAll(s, names)
  {
    if |names| > 0 {
      var s1 := OnKeyPress(s, names[0], true);
      assert KeyDowns(names) == [Key(names[0], true)] + KeyDowns(names[1..]);
      assert [Key(names[0], true)][..0] == [];
      assert Run(s, [Key(names[0], true)]) == s1;
      RunAppend(s, [Key(names[0], true)], KeyDowns(names[1..]));
      RunKeyDowns(s1, names[1..]);
    }
  }

  /** Pressing one run of keys and then another is pressing their concatenation. */
  lemma {:induction false} PressAllAppend(s: State, a: seq<string>, b: seq<string>)
    decreases |a|
    ensures PressAll(s, a + b) == PressAll(PressAll(s, a), b)
  {
    if |a| > 0 {
      assert (a + b)[1..] == a[1..] + b;
      PressAllAppend(OnKeyPress(s, a[0], true), a[1..], b);
    } else {
      assert a + b == b;
    }
  }
  /** A session opened and then a stream of key-downs: the key handler run from a fresh ballot. */
  lemma OpenThenKeys(s: State, names: seq<string>)
    requires Usable(s.roster) && s.running
    ensures Run(s, [Start] + KeyDowns(names)) == PressAll(StartVoting(s), names)
  {
    assert [Start][..0] == [];
    assert Run(s, [Start]) == StartVoting(s);
    RunAppend(s, [Start], KeyDowns(names));
    RunKeyDowns(StartVoting(s), names);
  }
}

=== FILE: roster.dfy ===
/**
 The session roster: the numbered student cohorts ("Session N") in creation order,
 how many students each has, the current one, and the running total. The roster
 file is a list of rows; a row of exactly two cells is (session number, count).
 The session name "Session N" is represented by its number N.
 */
module Roster {
  import opened Wrappers

  /** A roster file row; only rows of exactly two cells are read back. */
  type FileRow = seq<int>

  /**
   The in-memory roster. `names` keeps the sessions in order (duplicates are possible
   when a hand-edited file repeats a name), `counts` maps each session to its count.
   */
  datatype Roster = Roster(names: seq<int>, counts: map<int, int>, current: int, total: int)

  /** Sum of the counts of `names`, in order. */
  function SumCounts(names: seq<int>, counts: map<int, int>): int
    requires forall i :: 0 <= i < |names| ==> names[i] in counts
  {
    if |names| == 0 then 0
    else SumCounts(names[..|names| - 1], counts) + counts[names[|names| - 1]]
  }

  predicate StrictlyIncreasing(names: seq<int>) {
    forall i, j :: 0 <= i < j < |names| ==> names[i] < names[j]
  }

  /**
   A roster as the program keeps it: sessions numbered upwards, one count per
   session, the last session current, and the total equal to the sum of the counts.
   */
  ghost predicate Valid(r: Roster) {
    && |r.names| > 0
    && StrictlyIncreasing(r.names)
    && (forall n :: n in r.counts <==> n in r.names)
    && r.current == r.names[|r.names| - 1]
    && r.total == SumCounts(r.names, r.counts)
  }

  /** The rows the file holds for a roster: one (number, count) pair per session, in order. */
  function Save(r: Roster): (rows: seq<FileRow>)
    requires forall i :: 0 <= i < |r.names| ==> r.names[i] in r.counts
    ensures |rows| == |r.names|
  {
    seq(|r.names|, i requires 0 <= i < |r.names| => [r.names[i], r.counts[r.names[i]]])
  }

  /** The rows of a file that are read back: exactly those with two cells, in order. */
  function PairRows(rows: seq<FileRow>): (kept: seq<FileRow>)
    ensures forall i :: 0 <= i < |kept| ==> |kept[i]| == 2
    ensures |kept| <= |rows|
    ensures (forall i :: 0 <= i < |rows| ==> |rows[i]| == 2) ==> kept == rows
    ensures forall row :: row in kept <==> row in rows && |row| == 2
  {
    if |rows| == 0 then []
    else
      assert rows == rows[..|rows| - 1] + [rows[|rows| - 1]];
      if |rows[|rows| - 1]| == 2 then PairRows(rows[..|rows| - 1]) + [rows[|rows| - 1]]
      else PairRows(rows[..|rows| - 1])
  }

  /** Filtering a file split in two keeps the pair rows of each part, in file order. */
  lemma {:induction false} PairRowsAppend(a: seq<FileRow>, b: seq<FileRow>)
    ensures PairRows(a + b) == PairRows(a) + PairRows(b)
    decreases |b|
  {
    if |b| == 0 {
      assert a + b == a;
    } else {
      assert (a + b)[..|a + b| - 1] == a + b[..|b| - 1];
      assert (a + b)[|a + b| - 1] == b[|b| - 1];
      PairRowsAppend(a, b[..|b| - 1]);
    }
  }

  /** The sum of the count cells of pair rows, taken from the first row on. */
  function RowSum(rows: seq<FileRow>): int
    requires forall i :: 0 <= i < |rows| ==> |rows[i]| == 2
  {
    if |rows| == 0 then 0 else rows[0][1] + RowSum(rows[1..])
  }

  /** The count cell of the last row adds on at the end of the sum. */
  lemma {:induction false} RowSumSnoc(rows: seq<FileRow>)
    requires forall i :: 0 <= i < |rows| ==> |rows[i]| == 2
    requires |rows| > 0
    ensures RowSum(rows) == RowSum(rows[..|rows| - 1]) + rows[|rows| - 1][1]
    decreases |rows|
  {
    if |rows| > 1 {
      assert rows[1..][..|rows| - 2] == rows[..|rows| - 1][1..];
      RowSumSnoc(rows[1..]);
    }
  }

  /** The result of reading the pair rows: names in order, counts by name, sum of counts. */
  datatype Loaded = Loaded(names: seq<int>, counts: map<int, int>, total: int)

  /** Reads pair rows one after another, as the load loop does. */
  function ReadPairs(rows: seq<FileRow>): (l: Loaded)
    requires forall i :: 0 <= i < |rows| ==> |rows[i]| == 2
    ensures |l.names| == |rows|
    ensures forall i :: 0 <= i < |rows| ==> l.names[i] == rows[i][0]
    ensures forall i :: 0 <= i < |rows| ==> rows[i][0] in l.counts
  {
    if |rows| == 0 then Loaded([], map[], 0)
    else
      var l := ReadPairs(rows[..|rows| - 1]);
      var row := rows[|rows| - 1];
      Loaded(l.names + [row[0]], l.counts[row[0] := row[1]], l.total + row[1])
  }

  /**
   What reading the pair rows gives, for any file: a count for exactly the names read,
   the count of the last row naming a session (a later row overrides an earlier
   one), and the total the sum of every row's count cell.
   */
  lemma {:induction false} ReadPairsReads(rows: seq<FileRow>)
    requires forall i :: 0 <= i < |rows| ==> |rows[i]| == 2
    ensures forall n :: n in ReadPairs(rows).counts <==> n in ReadPairs(rows).names
    ensures forall i :: 0 <= i < |rows| && (forall j :: i < j < |rows| ==> rows[j][0] != rows[i][0]) ==>
      ReadPairs(rows).counts[rows[i][0]] == rows[i][1]
    ensures ReadPairs(rows).total == RowSum(rows)
  {
    ReadPairsDomain(rows);
    ReadPairsLastWins(rows);
    ReadPairsRowSum(rows);
  }

  /** A session's count is the count cell of the last row naming it. */
  lemma {:induction false} ReadPairsLastWins(rows: seq<FileRow>)
    requires forall i :: 0 <= i < |rows| ==> |rows[i]| == 2
    ensures forall i :: 0 <= i < |rows| && (forall j :: i < j < |rows| ==> rows[j][0] != rows[i][0]) ==>
      ReadPairs(rows).counts[rows[i][0]] == rows[i][1]
  {
    if |rows| > 0 {
      var init := rows[..|rows| - 1];
      var l := ReadPairs(init);
      var row := rows[|rows| - 1];
      assert ReadPairs(rows).counts == l.counts[row[0] := row[1]];
      ReadPairsLastWins(init);
      forall i | 0 <= i < |rows| && (forall j :: i < j < |rows| ==> rows[j][0] != rows[i][0])
        ensures ReadPairs(rows).counts[rows[i][0]] == rows[i][1]
      {
        if i < |rows| - 1 {
          assert rows[i] == init[i];
          assert forall j :: i < j < |init| ==> init[j][0] != init[i][0] by {
            forall j | i < j < |init| ensures init[j][0] != init[i][0] {
              assert init[j] == rows[j];
            }
          }
          assert rows[|rows| - 1][0] != rows[i][0];
        }
      }
    }
  }

  /** The loaded total is the sum of every row's count cell. */
  lemma {:induction false} ReadPairsRowSum(rows: seq<FileRow>)
    requires forall i :: 0 <= i < |rows| ==> |rows[i]| == 2
    ensures ReadPairs(rows).total == RowSum(rows)
  {
    if |rows| > 0 {
      ReadPairsRowSum(rows[..|rows| - 1]);
      RowSumSnoc(rows);
    }
  }

  /** The roster of a fresh install: only Session 1, with no students. */
  const Initial: Roster := Roster([1], map[1 := 0], 1, 0)

  /** Opens a new session numbered one past the last session, and makes it current. */
  function NewSession(r: Roster): (r': Roster)
    requires |r.names| > 0
    ensures r'.names == r.names + [r.names[|r.names| - 1] + 1]
    ensures r'.current == r.names[|r.names| - 1] + 1 && r'.current in r'.counts && r'.counts[r'.current] == 0
    ensures forall n :: n in r.counts && n != r'.current ==> n in r'.counts && r'.counts[n] == r.counts[n]
    ensures r'.total == r.total
  {
    var next := r.names[|r.names| - 1] + 1;
    Roster(r.names + [next], r.counts[next := 0], next, r.total)
  }

  /**
   Loads the roster at start-up: with no file, or no two-cell row in it, only
   Session 1; otherwise the sessions read in order, the total their sum, and a new
   session opened after the last one.
   */
  function Load(file: Option<seq<FileRow>>): (r: Roster)
    ensures |r.names| > 0
    ensures (file.None? || |PairRows(file.value)| == 0) ==> r == Initial
  {
    var rows := if file.Some? then PairRows(file.value) else [];
    if |rows| == 0 then Initial
    else
      var l := ReadPairs(rows);
      NewSession(Roster(l.names, l.counts, l.names[|l.names| - 1], l.total))
  }

  /** Counts one more student in the current session and in the total. */
  function CountStudent(r: Roster): (r': Roster)
    requires r.current in r.counts
    ensures r'.names == r.names && r'.current == r.current
    ensures r'.total == r.total + 1
    ensures r'.counts.Keys == r.counts.Keys
    ensures r'.counts[r.current] == r.counts[r.current] + 1
    ensures forall n :: n in r.counts && n != r.current ==> r'.counts[n] == r.counts[n]
  {
    r.(counts := r.counts[r.current := r.counts[r.current] + 1], total := r.total + 1)
  }

  // ---------------------------------------------------------------- lemmas

  /** The sum only looks at the counts of listed names. */
  lemma {:induction false} SumCountsIgnores(names: seq<int>, counts: map<int, int>, n: int, v: int)
    requires forall i :: 0 <= i < |names| ==> names[i] in counts
    requires forall i :: 0 <= i < |names| ==> names[i] != n
    ensures SumCounts(names, counts[n := v]) == SumCounts(names, counts)
  {
    if |names| > 0 {
      SumCountsIgnores(names[..|names| - 1], counts, n, v);
    }
  }

  /** The sum over a list extended by one name adds that name's count. */
  lemma SumCountsSnoc(names: seq<int>, n: int, counts: map<int, int>)
    requires forall i :: 0 <= i < |names| ==> names[i] in counts
    requires n in counts
    ensures SumCounts(names + [n], counts) == SumCounts(names, counts) + counts[n]
  {
    assert (names + [n])[..|names|] == names;
  }

  /** Adding one to the count of a name listed once adds one to the sum. */
  lemma {:induction false} SumCountsBump(names: seq<int>, counts: map<int, int>, n: int)
    requires forall i :: 0 <= i < |names| ==> names[i] in counts
    requires StrictlyIncreasing(names)
    requires n in names
    ensures SumCounts(names, counts[n := counts[n] + 1]) == SumCounts(names, counts) + 1
  {
    var init := names[..|names| - 1];
    var last := names[|names| - 1];
    if last == n {
      assert forall i :: 0 <= i < |init| ==> init[i] != n;
      SumCountsIgnores(init, counts, n, counts[n] + 1);
    } else {
      assert n in init;
      SumCountsBump(init, counts, n);
    }
  }

  /** A new session keeps a valid roster valid: its count is zero, so the total still sums. */
  lemma NewSessionValid(r: Roster)
    requires Valid(r)
    ensures Valid(NewSession(r))
  {
    var r' := NewSession(r);
    NewSessionAbove(r);
    NewSessionSum(r);
    assert r'.names[|r'.names| - 1] == r'.current;
  }

  /** The new session's number is above every existing one, so the list stays increasing. */
  lemma NewSessionAbove(r: Roster)
    requires |r.names| > 0 && StrictlyIncreasing(r.names)
    ensures forall i :: 0 <= i < |r.names| ==> r.names[i] < NewSession(r).current
    ensures StrictlyIncreasing(NewSession(r).names)
  {
    var next := NewSession(r).current;
    assert forall i :: 0 <= i < |r.names| ==> r.names[i] <= r.names[|r.names| - 1];
  }

  /** The new session's zero count leaves the sum over the old sessions as it was. */
  lemma NewSessionSum(r: Roster)
    requires Valid(r)
    ensures forall n :: n in NewSession(r).counts <==> n in NewSession(r).names
    ensures NewSession(r).total == SumCounts(NewSession(r).names, NewSession(r).counts)
  {
    var r' := NewSession(r);
    var next := r'.current;
    NewSessionAbove(r);
    SumCountsIgnores(r.names, r.counts, next, 0);
    SumCountsSnoc(r.names, next, r'.counts);
  }

  /** Counting a student keeps a roster valid: the total and the current count move together. */
  lemma CountStudentValid(r: Roster)
    requires Valid(r)
    ensures Valid(CountStudent(r))
  {
    SumCountsBump(r.names, r.counts, r.current);
  }

  /** The loaded counts are kept for exactly the loaded names. */
  lemma {:induction false} ReadPairsDomain(rows: seq<FileRow>)
    requires forall i :: 0 <= i < |rows| ==> |rows[i]| == 2
    ensures forall n :: n in ReadPairs(rows).counts <==> n in ReadPairs(rows).names
  {
    if |rows| > 0 {
      var init := rows[..|rows| - 1];
      var l := ReadPairs(init);
      var row := rows[|rows| - 1];
      assert ReadPairs(rows) == Loaded(l.names + [row[0]], l.counts[row[0] := row[1]], l.total + row[1]);
      ReadPairsDomain(init);
    }
  }

  /** Every loaded session carries the count of its own row, since the names are distinct. */
  lemma {:induction false} ReadPairsCounts(rows: seq<FileRow>)
    requires forall i :: 0 <= i < |rows| ==> |rows[i]| == 2
    requires StrictlyIncreasing(ReadPairs(rows).names)
    ensures forall i :: 0 <= i < |rows| ==> ReadPairs(rows).counts[rows[i][0]] == rows[i][1]
  {
    if |rows| > 0 {
      var init := rows[..|rows| - 1];
      var l := ReadPairs(init);
      var l' := ReadPairs(rows);
      var row := rows[|rows| - 1];
      assert l'.names == l.names + [row[0]];
      assert StrictlyIncreasing(l.names);
      ReadPairsCounts(init);
      forall i | 0 <= i < |rows| ensures l'.counts[rows[i][0]] == rows[i][1] {
        if i < |rows| - 1 {
          assert rows[i] == init[i];
          assert l'.names[i] < l'.names[|rows| - 1];
          assert rows[i][0] != row[0];
        }
      }
    }
  }

  /** Reading one more pair with a new name keeps the total equal to the sum of the counts. */
  lemma ReadPairStep(names: seq<int>, counts: map<int, int>, total: int, n: int, v: int)
    requires forall i :: 0 <= i < |names| ==> names[i] in counts && names[i] != n
    requires total == SumCounts(names, counts)
    ensures total + v == SumCounts(names + [n], counts[n := v])
  {
    SumCountsIgnores(names, counts, n, v);
    SumCountsSnoc(names, n, counts[n := v]);
  }

  /** The loaded total is the sum of the loaded counts, since the names are distinct. */
  lemma {:induction false} ReadPairsTotal(rows: seq<FileRow>)
    requires forall i :: 0 <= i < |rows| ==> |rows[i]| == 2
    requires StrictlyIncreasing(ReadPairs(rows).names)
    ensures ReadPairs(rows).total == SumCounts(ReadPairs(rows).names, ReadPairs(rows).counts)
  {
    if |rows| > 0 {
      var init := rows[..|rows| - 1];
      var l := ReadPairs(init);
      var row := rows[|rows| - 1];
      assert ReadPairs(rows) == Loaded(l.names + [row[0]], l.counts[row[0] := row[1]], l.total + row[1]);
      assert StrictlyIncreasing(l.names);
      ReadPairsTotal(init);
      assert forall i :: 0 <= i < |l.names| ==> l.names[i] != row[0] by {
        forall i | 0 <= i < |l.names| ensures l.names[i] != row[0] {
          assert ReadPairs(rows).names[i] < ReadPairs(rows).names[|rows| - 1];
        }
      }
      ReadPairStep(l.names, l.counts, l.total, row[0], row[1]);
    }
  }

  /** Reading pair rows with upward names gives a valid roster once its last name is made current. */
  lemma ReadPairsValid(rows: seq<FileRow>)
    requires |rows| > 0
    requires forall i :: 0 <= i < |rows| ==> |rows[i]| == 2
    requires forall i, j :: 0 <= i < j < |rows| ==> rows[i][0] < rows[j][0]
    ensures Valid(Roster(ReadPairs(rows).names, ReadPairs(rows).counts, ReadPairs(rows).names[|rows| - 1], ReadPairs(rows).total))
    ensures forall i :: 0 <= i < |rows| ==> ReadPairs(rows).counts[rows[i][0]] == rows[i][1]
  {
    var l := ReadPairs(rows);
    assert StrictlyIncreasing(l.names);
    ReadPairsDomain(rows);
    ReadPairsCounts(rows);
    ReadPairsTotal(rows);
  }

  /**
   Loading a file whose sessions are numbered upwards gives a valid roster that
   lists the file's sessions with their counts, in order, then one new empty session.
   */
  lemma LoadValid(file: seq<FileRow>)
    requires |PairRows(file)| > 0
    requires forall i, j :: 0 <= i < j < |PairRows(file)| ==> PairRows(file)[i][0] < PairRows(file)[j][0]
    ensures Valid(Load(Some(file)))
    ensures |Load(Some(file)).names| == |PairRows(file)| + 1
    ensures forall i :: 0 <= i < |PairRows(file)| ==>
      Load(Some(file)).names[i] == PairRows(file)[i][0] && Load(Some(file)).counts[PairRows(file)[i][0]] == PairRows(file)[i][1]
  {
    var rows := PairRows(file);
    var l := ReadPairs(rows);
    assert Load(Some(file)) == NewSession(Roster(l.names, l.counts, l.names[|l.names| - 1], l.total));
    OpenedValid(rows);
  }

  /** Reading upward pair rows and opening the next session gives a valid roster that keeps every row. */
  lemma OpenedValid(rows: seq<FileRow>)
    requires |rows| > 0
    requires forall i :: 0 <= i < |rows| ==> |rows[i]| == 2
    requires forall i, j :: 0 <= i < j < |rows| ==> rows[i][0] < rows[j][0]
    ensures var l := ReadPairs(rows);
      var r := NewSession(Roster(l.names, l.counts, l.names[|l.names| - 1], l.total));
      && Valid(r) && |r.names| == |rows| + 1
      && forall i :: 0 <= i < |rows| ==> r.names[i] == rows[i][0] && r.counts[rows[i][0]] == rows[i][1]
  {
    var l := ReadPairs(rows);
    var base := Roster(l.names, l.counts, l.names[|l.names| - 1], l.total);
    ReadPairsValid(rows);
    NewSessionValid(base);
    NewSessionKeeps(base);
  }


  /** A new session keeps every existing session in place with its count. */
  lemma NewSessionKeeps(r: Roster)
    requires Valid(r)
    ensures forall i :: 0 <= i < |r.names| ==>
      NewSession(r).names[i] == r.names[i] && NewSession(r).counts[r.names[i]] == r.counts[r.names[i]]
  {
    NewSessionAbove(r);
  }

  /** The rows saved for a valid roster read back as its names, counts and total. */
  lemma SaveReadsBack(r: Roster)
    requires Valid(r)
    ensures ReadPairs(Save(r)) == Loaded(r.names, r.counts, r.total)
  {
    var rows := Save(r);
    var l := ReadPairs(rows);
    ReadPairsValid(rows);
    SavedCounts(r);
  }

  /** The counts read back from the saved rows are the roster's counts. */
  lemma SavedCounts(r: Roster)
    requires Valid(r)
    ensures ReadPairs(Save(r)).names == r.names
    ensures ReadPairs(Save(r)).counts == r.counts
  {
    var l := ReadPairs(Save(r));
    SavedNames(r);
    SavedKeys(r);
    SavedValues(r);
    assert forall n :: n in l.counts ==> l.counts[n] == r.counts[n];
  }

  /** The saved rows read back to the roster's session list. */
  lemma SavedNames(r: Roster)
    requires Valid(r)
    ensures ReadPairs(Save(r)).names == r.names
  {
  }

  /** The saved rows read back to counts for exactly the roster's sessions. */
  lemma SavedKeys(r: Roster)
    requires Valid(r)
    ensures ReadPairs(Save(r)).counts.Keys == r.counts.Keys
  {
    var l := ReadPairs(Save(r));
    SavedNames(r);
    ReadPairsDomain(Save(r));
    forall n ensures n in l.counts <==> n in r.counts {
      assert n in l.counts <==> n in l.names;
      assert n in r.counts <==> n in r.names;
    }
  }

  /** Each saved session reads back with its own count. */
  lemma SavedValues(r: Roster)
    requires Valid(r)
    ensures forall n :: n in r.counts ==> n in ReadPairs(Save(r)).counts && ReadPairs(Save(r)).counts[n] == r.counts[n]
  {
    var rows := Save(r);
    SavedNames(r);
    ReadPairsCounts(rows);
    forall n | n in r.counts ensures n in ReadPairs(rows).counts && ReadPairs(rows).counts[n] == r.counts[n] {
      var i :| 0 <= i < |r.names| && r.names[i] == n;
      assert rows[i][0] == n && rows[i][1] == r.counts[n];
    }
  }

  /**
   Save then load: reading back the rows written for a valid roster restores every
   session with its count and the total, then opens the next session.
   */
  lemma SaveLoadRoundTrip(r: Roster)
    requires Valid(r)
    ensures Load(Some(Save(r))) == NewSession(r)
  {
    var rows := Save(r);
    assert PairRows(rows) == rows;
    SaveReadsBack(r);
  }
}

=== FILE: scenarios.dfy ===
/**
 Concrete runs of the kiosk: the held-key and filled-position behaviour of the key
 handler, and an exit while a completed ballot waits for its scheduled finalize.
 */
module Scenarios {
  import opened Wrappers
  import opened Ballot
  import Roster
  import opened Machine
  import opened MachineInvariants

  /** The bindings the scenarios press. */
  lemma Bindings()
    ensures KeyMapping["2"] == Binding("Fahmi Hamdhan", "Head Boy")
    ensures KeyMapping["3"] == Binding("Rayan Muhammed VP", "Head Boy")
    ensures KeyMapping["5"] == Binding("Bibi Bismil PK", "Sports Captain - Girl")
    ensures KeyMapping["9"] == Binding("Fizan E", "Arts Captain - Boy")
    ensures KeyMapping["\\"] == Binding("Azaza Subair", "Arts Captain - Girl")
    ensures KeyMapping["home"] == Binding("Alhadi Ansad K", "Co-curricular Activity Monitor - Boy")
    ensures KeyMapping["/"] == Binding("Aamiya Jamal", "Co-curricular Activity Monitor - Girl")
  {
  }

  /** An accepted key adds its binding to the ballot and nothing else. */
  lemma PressRecords(s: State, name: string)
    requires Accepts(s, name, true)
    ensures OnKeyPress(s, name, true).votes == s.votes[KeyMapping[name].position := KeyMapping[name].candidate]
  {
  }

  /** The first two accepted presses of the scenario. */
  lemma ScenarioVotes(s: State)
    requires !s.active && s.votes == map[] && s.lastKey == None
    ensures OnKeyPress(StartVoting(s), "2", true).votes == map["Head Boy" := "Fahmi Hamdhan"]
    ensures OnKeyPress(OnKeyPress(StartVoting(s), "2", true), "5", true).votes ==
      map["Head Boy" := "Fahmi Hamdhan", "Sports Captain - Girl" := "Bibi Bismil PK"]
  {
    Bindings();
    var s1 := OnKeyPress(StartVoting(s), "2", true);
    PressRecords(StartVoting(s), "2");
    assert "Sports Captain - Girl" != "Head Boy";
    PressRecords(s1, "5");
  }

  /** The scratch row after the first two votes of the scenario. */
  lemma ScenarioScratch()
    ensures ScratchRow(map["Head Boy" := "Fahmi Hamdhan", "Sports Captain - Girl" := "Bibi Bismil PK"])
      == ["Fahmi Hamdhan", "Bibi Bismil PK", "", "", "", ""]
  {
    var v := map["Head Boy" := "Fahmi Hamdhan", "Sports Captain - Girl" := "Bibi Bismil PK"];
    MappingFacts();
    assert Positions[2] !in v && Positions[3] !in v && Positions[4] !in v && Positions[5] !in v;
  }

  /**
   A student presses "2" (Head Boy: Fahmi Hamdhan): the vote is recorded. Holding or
   releasing and pressing "2" again changes nothing, since up events never reach the
   handler and "2" is still the last key. "5" (Sports Captain - Girl: Bibi Bismil PK)
   is recorded next. "3", for the already decided Head Boy, is dropped, as is "2"
   once another key came between.
   */
  lemma HeldKeyScenario(s: State)
    requires !s.active && s.votes == map[] && s.lastKey == None
    ensures
      var s1 := OnKeyPress(StartVoting(s), "2", true);
      var s2 := OnKeyPress(OnKeyPress(OnKeyPress(s1, "2", true), "2", false), "2", true);
      var s3 := OnKeyPress(s2, "5", true);
      var s4 := OnKeyPress(OnKeyPress(s3, "3", true), "2", true);
      && s1.votes == map["Head Boy" := "Fahmi Hamdhan"]
      && s2 == s1
      && s3.votes == map["Head Boy" := "Fahmi Hamdhan", "Sports Captain - Girl" := "Bibi Bismil PK"]
      && s3.temp == Some(["Fahmi Hamdhan", "Bibi Bismil PK", "", "", "", ""])
      && s4.votes == s3.votes && s4.lastKey == Some("2")
      && s4.pending == s.pending
  {
    ScenarioVotes(s);
    ScenarioScratch();
    Bindings();
  }

  /** Running one more event is one more step. */
  lemma RunSnoc(s: State, events: seq<Event>, e: Event)
    requires Usable(s.roster)
    ensures Run(s, events + [e]) == Step(Run(s, events), e)
  {
    assert (events + [e])[..|events|] == events;
  }

  /** A press of a bound key for an open position records it, and only that changes besides the scratch row and schedule. */
  lemma PressOpen(s: State, name: string, p: string, c: string)
    requires s.active && s.lastKey != Some(name)
    requires name in KeyMapping && KeyMapping[name] == Binding(c, p)
    requires p !in s.votes
    ensures var r := OnKeyPress(s, name, true);
      && r.votes.Keys == s.votes.Keys + {p} && |r.votes| == |s.votes| + 1
      && r.lastKey == Some(name)
      && r.pending == s.pending + (if |r.votes| == |Positions| then 1 else 0)
      && r.active && r.running == s.running && r.main == s.main && r.roster == s.roster
  {
    var r := OnKeyPress(s, name, true);
    assert r.votes.Keys == s.votes.Keys + {p};
    assert |r.votes.Keys| == |s.votes.Keys| + 1;
  }

  /**
   Three key-downs during voting, each different from the key before it, bound to
   `b1`, `b2`, `b3` for three distinct positions that are still open.
   */
  predicate OpenPresses(s: State, n1: string, n2: string, n3: string, b1: Binding, b2: Binding, b3: Binding) {
    && s.active && s.lastKey != Some(n1) && n2 != n1 && n3 != n2
    && n1 in KeyMapping && KeyMapping[n1] == b1
    && n2 in KeyMapping && KeyMapping[n2] == b2
    && n3 in KeyMapping && KeyMapping[n3] == b3
    && b1.position !in s.votes && b2.position !in s.votes && b3.position !in s.votes
    && b1.position != b2.position && b1.position != b3.position && b2.position != b3.position
  }

  /**
   Three presses of bound keys, each different from the one before, for three
   distinct open positions: the three votes are recorded, and the finalize is
   scheduled exactly when the third one fills the ballot.
   */
  lemma ThreeOpen(s: State, n1: string, n2: string, n3: string, b1: Binding, b2: Binding, b3: Binding)
    requires OpenPresses(s, n1, n2, n3, b1, b2, b3)
    requires |s.votes| + 3 <= |Positions|
    ensures
      var v := OnKeyPress(OnKeyPress(OnKeyPress(s, n1, true), n2, true), n3, true);
      && v.votes.Keys == s.votes.Keys + {b1.position, b2.position, b3.position}
      && |v.votes| == |s.votes| + 3
      && v.lastKey == Some(n3)
      && v.pending == s.pending + (if |v.votes| == |Positions| then 1 else 0)
      && v.active && v.running == s.running && v.main == s.main && v.roster == s.roster
  {
    ThreeOpenVotes(s, n1, n2, n3, b1, b2, b3);
    ThreeOpenFrame(s, n1, n2, n3, b1, b2, b3);
    ThreeOpenPending(s, n1, n2, n3, b1, b2, b3);
  }

  /** The three presses add their three positions to the ballot. */
  lemma ThreeOpenVotes(s: State, n1: string, n2: string, n3: string, b1: Binding, b2: Binding, b3: Binding)
    requires OpenPresses(s, n1, n2, n3, b1, b2, b3)
    ensures
      var v := OnKeyPress(OnKeyPress(OnKeyPress(s, n1, true), n2, true), n3, true);
      && v.votes.Keys == s.votes.Keys + {b1.position, b2.position, b3.position}
      && |v.votes| == |s.votes| + 3
  {
    var s1 := OnKeyPress(s, n1, true);
    PressOpen(s, n1, b1.position, b1.candidate);
    var s2 := OnKeyPress(s1, n2, true);
    PressOpen(s1, n2, b2.position, b2.candidate);
    PressOpen(s2, n3, b3.position, b3.candidate);
  }

  /** The three presses leave the session open and the tables and roster alone. */
  lemma ThreeOpenFrame(s: State, n1: string, n2: string, n3: string, b1: Binding, b2: Binding, b3: Binding)
    requires OpenPresses(s, n1, n2, n3, b1, b2, b3)
    ensures
      var v := OnKeyPress(OnKeyPress(OnKeyPress(s, n1, true), n2, true), n3, true);
      v.lastKey == Some(n3) && v.active && v.running == s.running && v.main == s.main && v.roster == s.roster
  {
    var s1 := OnKeyPress(s, n1, true);
    var s2 := OnKeyPress(s1, n2, true);
    assert s1.active && s1.lastKey == Some(n1);
    assert s2.active && s2.lastKey == Some(n2);
  }

  /** Only the press that fills the ballot schedules a finalize. */
  lemma ThreeOpenPending(s: State, n1: string, n2: string, n3: string, b1: Binding, b2: Binding, b3: Binding)
    requires OpenPresses(s, n1, n2, n3, b1, b2, b3)
    requires |s.votes| + 3 <= |Positions|
    ensures
      var v := OnKeyPress(OnKeyPress(OnKeyPress(s, n1, true), n2, true), n3, true);
      v.pending == s.pending + (if |s.votes| + 3 == |Positions| then 1 else 0)
  {
    var s1 := OnKeyPress(s, n1, true);
    PressOpen(s, n1, b1.position, b1.candidate);
    var s2 := OnKeyPress(s1, n2, true);
    PressOpen(s1, n2, b2.position, b2.candidate);
    PressOpen(s2, n3, b3.position, b3.candidate);
  }

  /** The votes after the first three keys of the full ballot (Head Boy, Sports Captain - Girl, Arts Captain - Boy). */
  lemma FirstThreeVotes(s: State)
    requires s.active && s.votes == map[] && s.lastKey == None
    ensures
      var v := OnKeyPress(OnKeyPress(OnKeyPress(s, "2", true), "5", true), "9", true);
      && v.votes.Keys == {"Head Boy", "Sports Captain - Girl", "Arts Captain - Boy"} && |v.votes| == 3
      && v.lastKey == Some("9") && v.pending == s.pending
      && v.active && v.running == s.running && v.main == s.main && v.roster == s.roster
  {
    Bindings();
    PositionsDistinct();
    ThreeOpen(s, "2", "5", "9", KeyMapping["2"], KeyMapping["5"], KeyMapping["9"]);
  }

  /** The last three positions of the run below; the sixth vote schedules the finalize. */
  lemma LastThreeVotes(s: State)
    requires s.active && s.votes.Keys == {"Head Boy", "Sports Captain - Girl", "Arts Captain - Boy"} && |s.votes| == 3
    requires s.lastKey == Some("9")
    ensures
      var v := OnKeyPress(OnKeyPress(OnKeyPress(s, "\\", true), "home", true), "/", true);
      && v.votes.Keys == s.votes.Keys + {"Arts Captain - Girl", "Co-curricular Activity Monitor - Boy", "Co-curricular Activity Monitor - Girl"}
      && v.pending == s.pending + 1
      && v.active && v.running == s.running && v.main == s.main && v.roster == s.roster
  {
    Bindings();
    PositionsDistinct();
    ThreeOpen(s, "\\", "home", "/", KeyMapping["\\"], KeyMapping["home"], KeyMapping["/"]);
  }

  /** A ballot holding the six positions is complete. */
  lemma SixPositionsComplete(votes: map<string, string>)
    requires votes.Keys == {"Head Boy", "Sports Captain - Girl", "Arts Captain - Boy"} +
      {"Arts Captain - Girl", "Co-curricular Activity Monitor - Boy", "Co-curricular Activity Monitor - Girl"}
    ensures Complete(votes)
  {
  }

  /** The six keys a student presses in the runs below, one per position. */
  const BallotKeys: seq<string> := ["2", "5", "9", "\\", "home", "/"]

  /** Opening the session, then the six keys. */
  const FullBallot: seq<Event> := [Start] + KeyDowns(BallotKeys)

  /** Three presses in a row. */
  lemma PressThree(s: State, a: string, b: string, c: string)
    ensures PressAll(s, [a, b, c]) == OnKeyPress(OnKeyPress(OnKeyPress(s, a, true), b, true), c, true)
  {
    var s1 := OnKeyPress(s, a, true);
    var s2 := OnKeyPress(s1, b, true);
    assert [a, b, c][1..] == [b, c] && [b, c][1..] == [c] && [c][1..] == [];
    assert PressAll(s2, [c]) == OnKeyPress(s2, c, true);
  }

  /** While running, the full ballot is opening the session and then pressing its keys in two halves. */
  lemma FullBallotPresses(s0: State)
    requires Usable(s0.roster) && s0.running
    ensures Run(s0, FullBallot) == PressAll(PressAll(StartVoting(s0), ["2", "5", "9"]), ["\\", "home", "/"])
  {
    OpenThenKeys(s0, BallotKeys);
    SplitKeys(StartVoting(s0));
  }

  /** The six keys in two halves. */
  lemma SplitKeys(t: State)
    ensures PressAll(t, BallotKeys) == PressAll(PressAll(t, ["2", "5", "9"]), ["\\", "home", "/"])
  {
    assert BallotKeys == ["2", "5", "9"] + ["\\", "home", "/"];
    PressAllAppend(t, ["2", "5", "9"], ["\\", "home", "/"]);
  }

  /** From an idle, running kiosk with nothing scheduled, the full ballot ends complete with one finalize waiting. */
  lemma FullBallotFrom(s0: State)
    requires Usable(s0.roster) && s0.running && !s0.active && s0.votes == map[] && s0.lastKey == None && s0.pending == 0
    ensures var s := Run(s0, FullBallot);
      s.active && Complete(s.votes) && s.pending == 1 && s.running && s.main == s0.main && s.roster == s0.roster
  {
    var t1 := StartVoting(s0);
    FullBallotPresses(s0);
    PressThree(t1, "2", "5", "9");
    FirstThreeVotes(t1);
    var t4 := PressAll(t1, ["2", "5", "9"]);
    PressThree(t4, "\\", "home", "/");
    LastThreeVotes(t4);
    SixPositionsComplete(Run(s0, FullBallot).votes);
  }

  /** A complete ballot waiting for its finalize, reached from a fresh start by six keys. */
  lemma CompletedBallot(rosterFile: Option<seq<Roster.FileRow>>, tempFile: Option<seq<string>>)
    ensures
      var s0 := Launch(true, rosterFile, None, None, tempFile).value;
      var s := Run(s0, FullBallot);
      s.active && Complete(s.votes) && s.pending == 1 && s.running && |s.main| == 1 && s.roster == s0.roster
  {
    FullBallotFrom(Launch(true, rosterFile, None, None, tempFile).value);
  }

  /**
   The delayed finalize of a complete ballot, with nothing else pending: the ballot
   is committed to both tables, the student is counted, the scratch record is
   removed, and the kiosk is idle again with nothing scheduled.
   */
  lemma FinalizeAfterBallot(t: State)
    requires Usable(t.roster) && t.running && Complete(t.votes) && WellFormedVotes(t.votes) && t.pending == 1
    ensures var r := Step(t, Finalize);
      && r.running && !r.active && r.votes == map[] && r.lastKey == None && r.temp == None && r.pending == 0
      && |r.main| == |t.main| + 1 && r.main[..|t.main|] == t.main && r.backup == t.backup + [r.main[|t.main|]]
      && BallotRow(r.main[|t.main|])
      && r.roster == Roster.CountStudent(t.roster)
  {
  }

  /**
   A whole vote from a fresh start: staff start the session, the student presses six
   keys, and the delayed finalize fires. Each table gains one identical, blank-free
   ballot row, and the student is counted in the total and in the current session.
   */
  lemma BallotThenFinalize(rosterFile: Option<seq<Roster.FileRow>>, tempFile: Option<seq<string>>)
    ensures
      var s0 := Launch(true, rosterFile, None, None, tempFile).value;
      var s := Run(s0, FullBallot + [Finalize]);
      && s.running && !s.active && s.votes == map[] && s.temp == None && s.pending == 0
      && s.main == s.backup && |s.main| == 2 && s.main[0] == Positions && BallotRow(s.main[1])
      && s.roster == Roster.CountStudent(s0.roster)
  {
    var s0 := Launch(true, rosterFile, None, None, tempFile).value;
    var t := Run(s0, FullBallot);
    CompletedBallot(rosterFile, tempFile);
    LaunchValid(rosterFile, None, None, tempFile);
    RunValid(s0, FullBallot);
    RunSnoc(s0, FullBallot, Finalize);
    FinalizeAfterBallot(t);
    FreshLedgersCountStudents(rosterFile, tempFile, FullBallot + [Finalize]);
  }

  /** The student of a whole vote is counted once in the total and once in the session that was current. */
  lemma BallotThenFinalizeCounts(rosterFile: Option<seq<Roster.FileRow>>, tempFile: Option<seq<string>>)
    ensures
      var s0 := Launch(true, rosterFile, None, None, tempFile).value;
      var s := Run(s0, FullBallot + [Finalize]);
      && s.roster.total == s0.roster.total + 1 && s.roster.current == s0.roster.current
      && s0.roster.current in s.roster.counts
      && s.roster.counts[s0.roster.current] == s0.roster.counts[s0.roster.current] + 1
  {
    BallotThenFinalize(rosterFile, tempFile);
  }

  /**
   As written, an authorized stop while a complete ballot waits for its finalize
   commits the ballot to both tables and ends the program, but counts no student.
   */
  lemma StopCommitsUncounted(s: State)
    requires Usable(s.roster) && s.running && s.active && Complete(s.votes)
    ensures var r := Step(s, Stop(true));
      !r.running && |r.main| == |s.main| + 1 && r.roster == s.roster
  {
    EmptyIncomplete();
  }

  /** With the exit counting its ballot, the same stop counts the student it commits. */
  lemma StopCommitsCounted(s: State)
    requires Usable(s.roster) && s.running && s.active && Complete(s.votes)
    ensures var r := StepCounted(s, Stop(true));
      !r.running && |r.main| == |s.main| + 1 && r.roster.total == s.roster.total + 1
  {
    EmptyIncomplete();
  }

  /**
   As written, stopping the program in the moment between the last key and the
   scheduled finalize commits the ballot to both tables but counts no student: the
   tables then hold one more ballot than the roster counts.
   */
  lemma StopBeforeFinalizeSkipsCount(rosterFile: Option<seq<Roster.FileRow>>, tempFile: Option<seq<string>>)
    ensures
      var s0 := Launch(true, rosterFile, None, None, tempFile).value;
      var s := Run(s0, FullBallot + [Stop(true)]);
      !s.running && |s.main| - |s0.main| == 1 && s.roster.total == s0.roster.total
  {
    var s0 := Launch(true, rosterFile, None, None, tempFile).value;
    CompletedBallot(rosterFile, tempFile);
    RunSnoc(s0, FullBallot, Stop(true));
    StopCommitsUncounted(Run(s0, FullBallot));
  }

  /** With the exit counting its ballot, the same run counts the student it commits. */
  lemma StopBeforeFinalizeCounted(rosterFile: Option<seq<Roster.FileRow>>, tempFile: Option<seq<string>>)
    ensures
      var s0 := Launch(true, rosterFile, None, None, tempFile).value;
      var s := StepCounted(Run(s0, FullBallot), Stop(true));
      !s.running && |s.main| - |s0.main| == 1 && s.roster.total == s0.roster.total + 1
  {
    var s0 := Launch(true, rosterFile, None, None, tempFile).value;
    CompletedBallot(rosterFile, tempFile);
    StopCommitsCounted(Run(s0, FullBallot));
  }
}

=== FILE: tally.dfy ===
/**
 The election tally: every row of the vote table, read under its header as a map
 from position to cell, adds one vote to its candidate in each position whose cell
 is not blank. Counts are kept per position in a counter that lists candidates in
 the order they were first seen. The report lists each position's candidates by
 count, largest first, and names the winner or the tied leaders.
 */
module Tally {

  /** One table row read under the header: position to cell, a cell possibly blank. */
  type Record = map<string, string>

  /** A candidate and its vote count. */
  datatype Entry = Entry(candidate: string, count: nat)

  /** One position's counter: its candidates in the order first seen, with counts. */
  type Counter = seq<Entry>

  /** The tally: a counter for every position that has received a vote. */
  type Tally = map<string, Counter>

  /** How one position was decided: a sole winner, or the leaders tied on the top count. */
  datatype Outcome = Winner(name: string) | Tie(names: seq<string>)

  /** What the report shows for one position. */
  datatype PositionReport = PositionReport(listing: seq<Entry>, total: nat, outcome: Outcome)

  // ------------------------------------------------------------ counters

  /** The count of a candidate; zero for a candidate never seen. */
  function CountOf(c: Counter, x: string): nat {
    if |c| == 0 then 0
    else if c[0].candidate == x then c[0].count
    else CountOf(c[1..], x)
  }

  /** Sum of all the counts. */
  function Sum(c: Counter): nat {
    if |c| == 0 then 0 else c[0].count + Sum(c[1..])
  }

  /** Every candidate listed once, none blank, each with at least one vote. */
  predicate WellFormed(c: Counter) {
    && (forall i, j :: 0 <= i < j < |c| ==> c[i].candidate != c[j].candidate)
    && (forall i :: 0 <= i < |c| ==> c[i].candidate != "" && c[i].count >= 1)
  }

  /**
   One more vote for `x`: its count grows by one and every other count stays; a
   candidate not seen before is appended at the end.
   */
  function Bump(c: Counter, x: string): (r: Counter)
    ensures forall y :: CountOf(r, y) == CountOf(c, y) + (if y == x then 1 else 0)
    ensures Sum(r) == Sum(c) + 1
  {
    if |c| == 0 then [Entry(x, 1)]
    else if c[0].candidate == x then [Entry(x, c[0].count + 1)] + c[1..]
    else [c[0]] + Bump(c[1..], x)
  }

  /** Bumping keeps every candidate in place and appends at most the new one. */
  lemma {:induction false} BumpShape(c: Counter, x: string)
    ensures |Bump(c, x)| == |c| || (|Bump(c, x)| == |c| + 1 && Bump(c, x)[|c|] == Entry(x, 1))
    ensures forall i :: 0 <= i < |c| ==> Bump(c, x)[i].candidate == c[i].candidate
    ensures forall i :: 0 <= i < |Bump(c, x)| ==> Bump(c, x)[i].candidate == x || Bump(c, x)[i] == c[i]
  {
    if |c| > 0 && c[0].candidate != x {
      BumpShape(c[1..], x);
    }
  }

  /** Bumping a non-blank candidate keeps a counter well formed. */
  lemma {:induction false} BumpWellFormed(c: Counter, x: string)
    requires WellFormed(c) && x != ""
    ensures WellFormed(Bump(c, x))
  {
    if |c| > 0 {
      var tail := c[1..];
      TailWellFormed(c);
      if c[0].candidate == x {
        ConsWellFormed(Entry(x, c[0].count + 1), tail);
      } else {
        BumpWellFormed(tail, x);
        BumpAvoids(tail, x, c[0].candidate);
        ConsWellFormed(c[0], Bump(tail, x));
      }
    }
  }

  /** The tail of a well-formed counter is well formed and does not repeat its head. */
  lemma TailWellFormed(c: Counter)
    requires WellFormed(c) && |c| > 0
    ensures WellFormed(c[1..])
    ensures forall i :: 0 <= i < |c[1..]| ==> c[1..][i].candidate != c[0].candidate
  {
    assert forall i :: 0 <= i < |c[1..]| ==> c[1..][i] == c[i + 1];
  }

  /** A fresh, non-blank, voted entry in front of a well-formed counter gives a well-formed counter. */
  lemma ConsWellFormed(e: Entry, s: Counter)
    requires WellFormed(s) && e.candidate != "" && e.count >= 1
    requires forall i :: 0 <= i < |s| ==> s[i].candidate != e.candidate
    ensures WellFormed([e] + s)
  {
    assert forall i :: 1 <= i < |[e] + s| ==> ([e] + s)[i] == s[i - 1];
  }

  /** Bumping `x` brings in no candidate other than `x`. */
  lemma BumpAvoids(c: Counter, x: string, y: string)
    requires y != x
    requires forall i :: 0 <= i < |c| ==> c[i].candidate != y
    ensures forall i :: 0 <= i < |Bump(c, x)| ==> Bump(c, x)[i].candidate != y
  {
    BumpShape(c, x);
  }

  // ------------------------------------------------------------ counting rows

  /** The counter of a position, empty if it has none. */
  function Get(t: Tally, p: string): Counter {
    if p in t then t[p] else []
  }

  /** Counts one row: each position with a non-blank cell gets one vote for that cell. */
  function AddRow(t: Tally, row: Record): (r: Tally)
    ensures forall p :: p in r <==> p in t || (p in row && row[p] != "")
    ensures forall p :: Get(r, p) == if p in row && row[p] != "" then Bump(Get(t, p), row[p]) else Get(t, p)
  {
    map p | p in t.Keys + (set q | q in row && row[q] != "") ::
      if p in row && row[p] != "" then Bump(Get(t, p), row[p]) else t[p]
  }

  /** Counts the rows in table order. */
  function TallyRows(rows: seq<Record>): (t: Tally)
    ensures forall p :: p in t <==> exists i :: 0 <= i < |rows| && p in rows[i] && rows[i][p] != ""
  {
    if |rows| == 0 then map[]
    else
      var init := rows[..|rows| - 1];
      assert forall i :: 0 <= i < |init| ==> init[i] == rows[i];
      AddRow(TallyRows(init), rows[|rows| - 1])
  }

  /** How many rows hold candidate `x` under position `p`. */
  function Votes(rows: seq<Record>, p: string, x: string): nat {
    if |rows| == 0 then 0
    else Votes(rows[..|rows| - 1], p, x) + (if p in rows[|rows| - 1] && rows[|rows| - 1][p] == x then 1 else 0)
  }

  /** How many rows hold a non-blank cell under position `p`. */
  function Cast(rows: seq<Record>, p: string): nat {
    if |rows| == 0 then 0
    else Cast(rows[..|rows| - 1], p) + (if p in rows[|rows| - 1] && rows[|rows| - 1][p] != "" then 1 else 0)
  }

  /** A candidate's count under a position is the number of rows naming it there. */
  lemma {:induction false} TallyVotes(rows: seq<Record>, p: string, x: string)
    requires x != ""
    ensures CountOf(Get(TallyRows(rows), p), x) == Votes(rows, p, x)
  {
    if |rows| > 0 {
      TallyVotes(rows[..|rows| - 1], p, x);
    }
  }

  /** The position total is the number of rows with a non-blank cell there. */
  lemma {:induction false} TallySum(rows: seq<Record>, p: string)
    ensures Sum(Get(TallyRows(rows), p)) == Cast(rows, p)
  {
    if |rows| > 0 {
      TallySum(rows[..|rows| - 1], p);
    }
  }

  /**
   A position is in the tally exactly when some row gave it a vote, so its counter is
   never empty; the counter lists each candidate once and never a blank one.
   */
  lemma {:induction false} TallyWellFormed(rows: seq<Record>, p: string)
    ensures WellFormed(Get(TallyRows(rows), p))
    ensures p in TallyRows(rows) <==> Cast(rows, p) > 0
    ensures p in TallyRows(rows) ==> |TallyRows(rows)[p]| > 0
  {
    if |rows| > 0 {
      TallyWellFormed(rows[..|rows| - 1], p);
      var t := TallyRows(rows[..|rows| - 1]);
      var row := rows[|rows| - 1];
      if p in row && row[p] != "" {
        BumpWellFormed(Get(t, p), row[p]);
        BumpShape(Get(t, p), row[p]);
      }
    }
  }

  /** Blank cells are never counted: no candidate of the tally is blank and the blank gets no votes. */
  lemma TallySkipsBlanks(rows: seq<Record>, p: string)
    ensures CountOf(Get(TallyRows(rows), p), "") == 0
    ensures forall i :: 0 <= i < |Get(TallyRows(rows), p)| ==> Get(TallyRows(rows), p)[i].candidate != ""
  {
    TallyWellFormed(rows, p);
    BlankNotListed(Get(TallyRows(rows), p));
  }

  /** A counter without a blank candidate gives the blank no votes. */
  lemma {:induction false} BlankNotListed(c: Counter)
    requires forall i :: 0 <= i < |c| ==> c[i].candidate != ""
    ensures CountOf(c, "") == 0
  {
    if |c| > 0 {
      BlankNotListed(c[1..]);
    }
  }

  /** Row counts over two tables joined end to end add up. */
  lemma {:induction false} VotesAppend(rows1: seq<Record>, rows2: seq<Record>, p: string, x: string)
    ensures Votes(rows1 + rows2, p, x) == Votes(rows1, p, x) + Votes(rows2, p, x)
    ensures Cast(rows1 + rows2, p) == Cast(rows1, p) + Cast(rows2, p)
  {
    if |rows2| > 0 {
      var last := rows2[|rows2| - 1];
      assert (rows1 + rows2)[..|rows1 + rows2| - 1] == rows1 + rows2[..|rows2| - 1];
      VotesAppend(rows1, rows2[..|rows2| - 1], p, x);
    } else {
      assert rows1 + rows2 == rows1;
    }
  }

  /**
   Tallying is additive: the tally of two tables joined end to end is, candidate by
   candidate and position by position, the sum of their tallies.
   */
  lemma TallyAdditive(rows1: seq<Record>, rows2: seq<Record>, p: string, x: string)
    ensures CountOf(Get(TallyRows(rows1 + rows2), p), x) == CountOf(Get(TallyRows(rows1), p), x) + CountOf(Get(TallyRows(rows2), p), x)
    ensures Sum(Get(TallyRows(rows1 + rows2), p)) == Sum(Get(TallyRows(rows1), p)) + Sum(Get(TallyRows(rows2), p))
  {
    TallySum(rows1 + rows2, p);
    TallySum(rows1, p);
    TallySum(rows2, p);
    VotesAppend(rows1, rows2, p, x);
    if x == "" {
      TallySkipsBlanks(rows1 + rows2, p);
      TallySkipsBlanks(rows1, p);
      TallySkipsBlanks(rows2, p);
    } else {
      TallyVotes(rows1 + rows2, p, x);
      TallyVotes(rows1, p, x);
      TallyVotes(rows2, p, x);
    }
  }

  // ------------------------------------------------------------ deciding a position

  /** The highest count in a non-empty counter. */
  function MaxCount(c: Counter): (m: nat)
    requires |c| > 0
    ensures forall i :: 0 <= i < |c| ==> c[i].count <= m
    ensures exists i :: 0 <= i < |c| && c[i].count == m
  {
    if |c| == 1 then c[0].count
    else
      var m := MaxCount(c[1..]);
      assert forall i :: 1 <= i < |c| ==> c[i] == c[1..][i - 1];
      if c[0].count > m then c[0].count else m
  }

  /** The candidates with count `m`, in counter order. */
  function WithCount(c: Counter, m: nat): (w: seq<string>)
    ensures forall x :: x in w <==> exists i :: 0 <= i < |c| && c[i].candidate == x && c[i].count == m
    ensures |w| <= |c|
  {
    if |c| == 0 then []
    else
      var rest := WithCount(c[1..], m);
      assert forall i :: 1 <= i < |c| ==> c[i] == c[1..][i - 1];
      if c[0].count == m then [c[0].candidate] + rest else rest
  }

  /**
   The winners of a position: exactly the candidates whose count is the maximum;
   there is at least one.
   */
  function Winners(c: Counter): (w: seq<string>)
    requires |c| > 0
    ensures forall x :: x in w <==> exists i :: 0 <= i < |c| && c[i].candidate == x && c[i].count == MaxCount(c)
    ensures |w| > 0
  {
    var w := WithCount(c, MaxCount(c));
    var i :| 0 <= i < |c| && c[i].count == MaxCount(c);
    assert c[i].candidate in w;
    w
  }

  /** In a well-formed counter, each listed candidate's count is its entry's count. */
  lemma {:induction false} CountOfEntry(c: Counter, k: nat)
    requires WellFormed(c) && k < |c|
    ensures CountOf(c, c[k].candidate) == c[k].count
  {
    if k > 0 {
      assert WellFormed(c[1..]);
      assert c[1..][k - 1] == c[k];
      CountOfEntry(c[1..], k - 1);
    }
  }

  /** Every winner has the top count: at least the count of every candidate of the position. */
  lemma WinnersAreTop(c: Counter)
    requires |c| > 0 && WellFormed(c)
    ensures forall x, i :: x in Winners(c) && 0 <= i < |c| ==> CountOf(c, x) == MaxCount(c) >= c[i].count
  {
    forall x | x in Winners(c) ensures CountOf(c, x) == MaxCount(c) {
      var k :| 0 <= k < |c| && c[k].candidate == x && c[k].count == MaxCount(c);
      CountOfEntry(c, k);
    }
  }

  /** A sole winner when exactly one candidate is at the top, otherwise the tied leaders. */
  function Decide(c: Counter): (o: Outcome)
    requires |c| > 0
    ensures o.Winner? <==> |Winners(c)| == 1
    ensures o.Winner? ==> o.name in Winners(c)
    ensures o.Tie? ==> o.names == Winners(c) && |o.names| >= 2
  {
    var w := Winners(c);
    if |w| == 1 then Winner(w[0]) else Tie(w)
  }

  /** How many entries have count `m`. */
  function AtCount(c: Counter, m: nat): nat {
    if |c| == 0 then 0 else (if c[0].count == m then 1 else 0) + AtCount(c[1..], m)
  }

  /** The candidate list for count `m` has one name per entry with that count. */
  lemma {:induction false} WithCountLength(c: Counter, m: nat)
    ensures |WithCount(c, m)| == AtCount(c, m)
  {
    if |c| > 0 {
      WithCountLength(c[1..], m);
    }
  }

  /** Entry `i` is the only one with count `m`. */
  predicate OnlyAt(c: Counter, m: nat, i: int) {
    0 <= i < |c| && c[i].count == m && forall j :: 0 <= j < |c| && j != i ==> c[j].count != m
  }

  /** Exactly one entry has count `m` precisely when one index has it and no other does. */
  lemma AtCountOne(c: Counter, m: nat)
    ensures AtCount(c, m) == 1 <==> exists i :: OnlyAt(c, m, i)
  {
    if AtCount(c, m) == 1 {
      AtCountOneHas(c, m);
    }
    if exists i :: OnlyAt(c, m, i) {
      var i :| OnlyAt(c, m, i);
      OnlyAtCounts(c, m, i);
    }
  }

  /** A count of one names its entry. */
  lemma {:induction false} AtCountOneHas(c: Counter, m: nat)
    requires AtCount(c, m) == 1
    ensures exists i :: OnlyAt(c, m, i)
  {
    var tail := c[1..];
    if c[0].count == m {
      AtCountZero(tail, m);
      forall j | 0 <= j < |c| && j != 0 ensures c[j].count != m { assert c[j] == tail[j - 1]; }
      assert OnlyAt(c, m, 0);
    } else {
      AtCountOneHas(tail, m);
      var i :| OnlyAt(tail, m, i);
      forall j | 0 <= j < |c| && j != i + 1 ensures c[j].count != m {
        if j > 0 { assert c[j] == tail[j - 1]; }
      }
      assert OnlyAt(c, m, i + 1);
    }
  }

  /** The only entry with count `m` makes the count of such entries one. */
  lemma {:induction false} OnlyAtCounts(c: Counter, m: nat, i: int)
    requires OnlyAt(c, m, i)
    ensures AtCount(c, m) == 1
  {
    var tail := c[1..];
    if i == 0 {
      forall j | 0 <= j < |tail| ensures tail[j].count != m { assert tail[j] == c[j + 1]; }
      AtCountZero(tail, m);
    } else {
      forall j | 0 <= j < |tail| && j != i - 1 ensures tail[j].count != m { assert tail[j] == c[j + 1]; }
      assert OnlyAt(tail, m, i - 1);
      OnlyAtCounts(tail, m, i - 1);
    }
  }

  /** No entry has count `m` exactly when the count of such entries is zero. */
  lemma {:induction false} AtCountZero(c: Counter, m: nat)
    ensures AtCount(c, m) == 0 <==> forall j :: 0 <= j < |c| ==> c[j].count != m
  {
    if |c| > 0 {
      AtCountZero(c[1..], m);
      assert forall j :: 1 <= j < |c| ==> c[j] == c[1..][j - 1];
    }
  }

  /**
   A sole winner is reported exactly when one entry of the counter attains the
   maximum; otherwise every tied leader is listed.
   */
  lemma DecideSoleWinner(c: Counter)
    requires |c| > 0
    ensures Decide(c).Winner? <==>
      exists i :: 0 <= i < |c| && c[i].count == MaxCount(c) && forall j :: 0 <= j < |c| && j != i ==> c[j].count < MaxCount(c)
  {
    var m := MaxCount(c);
    WithCountLength(c, m);
    AtCountOne(c, m);
    if Decide(c).Winner? {
      var i :| OnlyAt(c, m, i);
      assert forall j :: 0 <= j < |c| && j != i ==> c[j].count < m;
    }
    if exists i :: 0 <= i < |c| && c[i].count == m && forall j :: 0 <= j < |c| && j != i ==> c[j].count < m {
      var i :| 0 <= i < |c| && c[i].count == m && forall j :: 0 <= j < |c| && j != i ==> c[j].count < m;
      assert OnlyAt(c, m, i);
    }
  }

  /** Entries ordered by count, largest first. */
  predicate NonIncreasing(s: seq<Entry>) {
    forall i, j :: 0 <= i < j < |s| ==> s[i].count >= s[j].count
  }

  /** Places an entry before the first entry whose count is not larger. */
  function Insert(e: Entry, s: seq<Entry>): (r: seq<Entry>)
    requires NonIncreasing(s)
    ensures NonIncreasing(r)
    ensures multiset(r) == multiset(s) + multiset{e}
    ensures |r| > 0 && (r[0] == e || (|s| > 0 && r[0] == s[0]))
  {
    if |s| == 0 then [e]
    else if e.count >= s[0].count then [e] + s
    else
      var rest := Insert(e, s[1..]);
      assert s == [s[0]] + s[1..];
      [s[0]] + rest
  }

  /**
   The listing of a position: every entry of the counter exactly once, ordered by
   count from most to fewest votes.
   */
  function MostCommon(c: Counter): (r: seq<Entry>)
    ensures NonIncreasing(r)
    ensures multiset(r) == multiset(c)
  {
    if |c| == 0 then []
    else
      assert c == [c[0]] + c[1..];
      Insert(c[0], MostCommon(c[1..]))
  }

  /** What the report shows for one position that received votes. */
  function ReportFor(c: Counter): (r: PositionReport)
    requires |c| > 0
    ensures multiset(r.listing) == multiset(c) && NonIncreasing(r.listing)
    ensures r.total == Sum(c)
    ensures r.outcome == Decide(c)
  {
    PositionReport(MostCommon(c), Sum(c), Decide(c))
  }

  /**
   The report: one entry for every position some row voted in, with its total. Only
   positions that received a vote appear, so every maximum is over some candidate.
   */
  function Report(rows: seq<Record>): (r: map<string, PositionReport>)
    ensures forall p :: p in r <==> Cast(rows, p) > 0
    ensures forall p :: p in r ==> r[p].total == Cast(rows, p)
    ensures forall p :: p in r ==> p in TallyRows(rows) && |TallyRows(rows)[p]| > 0 && r[p] == ReportFor(TallyRows(rows)[p])
  {
    var t := TallyRows(rows);
    assert forall p :: (p in t ==> |t[p]| > 0 && Sum(t[p]) == Cast(rows, p)) && (p in t <==> Cast(rows, p) > 0) by {
      forall p ensures (p in t ==> |t[p]| > 0 && Sum(t[p]) == Cast(rows, p)) && (p in t <==> Cast(rows, p) > 0) {
        TallyWellFormed(rows, p);
        TallySum(rows, p);
      }
    }
    map p | p in t :: ReportFor(t[p])
  }

  // ------------------------------------------------------------ the report against the table

  /** The names an outcome announces: the sole winner, or every tied leader. */
  function Declared(o: Outcome): seq<string> {
    match o
    case Winner(n) => [n]
    case Tie(ns) => ns
  }

  /** The outcome announces exactly the candidates with the top count. */
  lemma DecideDeclares(c: Counter)
    requires |c| > 0
    ensures forall x :: x in Declared(Decide(c)) <==> x in Winners(c)
  {
    var w := Winners(c);
    if |w| == 1 {
      assert w == [w[0]];
    }
  }

  /** A candidate with votes is listed in the counter with exactly that count. */
  lemma {:induction false} CountOfListed(c: Counter, x: string)
    ensures CountOf(c, x) == 0 || exists i :: 0 <= i < |c| && c[i].candidate == x && c[i].count == CountOf(c, x)
  {
    if |c| > 0 && c[0].candidate != x {
      CountOfListed(c[1..], x);
      if CountOf(c, x) != 0 {
        var i :| 0 <= i < |c[1..]| && c[1..][i].candidate == x && c[1..][i].count == CountOf(c, x);
        assert c[i + 1] == c[1..][i];
      }
    }
  }

  /** `x` is a real candidate with votes under `p`, and no candidate has more rows naming it there. */
  ghost predicate Leads(rows: seq<Record>, p: string, x: string) {
    x != "" && Votes(rows, p, x) > 0 && forall y :: y != "" ==> Votes(rows, p, y) <= Votes(rows, p, x)
  }

  /**
   The announced winners of a position, read against the table: `x` is announced
   exactly when it is a real candidate with votes there and no candidate has more
   rows naming it under that position.
   */
  lemma ReportWinners(rows: seq<Record>, p: string, x: string)
    requires p in Report(rows)
    ensures x in Declared(Report(rows)[p].outcome) <==> Leads(rows, p, x)
  {
    var c := TallyRows(rows)[p];
    ReportOutcome(rows, p);
    DecideDeclares(c);
    assert x in Winners(c) ==> Leads(rows, p, x) by {
      if x in Winners(c) { WinnerIsTop(rows, p, x); }
    }
    assert Leads(rows, p, x) ==> x in Winners(c) by {
      if Leads(rows, p, x) { TopIsWinner(rows, p, x); }
    }
  }

  /** A reported position is tallied, and its outcome is decided on its counter. */
  lemma ReportOutcome(rows: seq<Record>, p: string)
    requires p in Report(rows)
    ensures p in TallyRows(rows) && |TallyRows(rows)[p]| > 0
    ensures Report(rows)[p].outcome == Decide(TallyRows(rows)[p])
    ensures multiset(Report(rows)[p].listing) == multiset(TallyRows(rows)[p])
  {
  }

  /** A candidate at the top count has votes, and at least as many as any other candidate. */
  lemma WinnerIsTop(rows: seq<Record>, p: string, x: string)
    requires p in TallyRows(rows) && |TallyRows(rows)[p]| > 0
    requires x in Winners(TallyRows(rows)[p])
    ensures Leads(rows, p, x)
  {
    var c := TallyRows(rows)[p];
    TallyWellFormed(rows, p);
    var k :| 0 <= k < |c| && c[k].candidate == x && c[k].count == MaxCount(c);
    CountOfEntry(c, k);
    TallyVotes(rows, p, x);
    forall y | y != "" ensures Votes(rows, p, y) <= Votes(rows, p, x) {
      TallyVotes(rows, p, y);
      CountOfListed(c, y);
    }
  }

  /** A candidate with votes and no rival above it has the top count. */
  lemma TopIsWinner(rows: seq<Record>, p: string, x: string)
    requires p in TallyRows(rows) && |TallyRows(rows)[p]| > 0
    requires Leads(rows, p, x)
    ensures x in Winners(TallyRows(rows)[p])
  {
    var c := TallyRows(rows)[p];
    TallyWellFormed(rows, p);
    TallyVotes(rows, p, x);
    CountOfListed(c, x);
    var i :| 0 <= i < |c| && c[i].candidate == x && c[i].count == CountOf(c, x);
    var k :| 0 <= k < |c| && c[k].count == MaxCount(c);
    CountOfEntry(c, k);
    TallyVotes(rows, p, c[k].candidate);
    assert c[k].count <= c[i].count;
  }

  /**
   The listing of a reported position, read against the table: every listed entry is
   a real candidate with its number of rows there, and every candidate with a vote
   there is listed.
   */
  lemma ReportListing(rows: seq<Record>, p: string)
    requires p in Report(rows)
    ensures forall e :: e in Report(rows)[p].listing ==> e.candidate != "" && e.count == Votes(rows, p, e.candidate)
    ensures forall x :: x != "" && Votes(rows, p, x) > 0 ==> exists e :: e in Report(rows)[p].listing && e.candidate == x
  {
    ReportOutcome(rows, p);
    ListedEntries(rows, p, Report(rows)[p].listing);
    CandidatesListed(rows, p, Report(rows)[p].listing);
  }

  /** Every entry of a listing that holds the counter's entries is a candidate with its row count. */
  lemma ListedEntries(rows: seq<Record>, p: string, listing: seq<Entry>)
    requires p in TallyRows(rows) && multiset(listing) == multiset(TallyRows(rows)[p])
    ensures forall e :: e in listing ==> e.candidate != "" && e.count == Votes(rows, p, e.candidate)
  {
    var c := TallyRows(rows)[p];
    TallyWellFormed(rows, p);
    forall e | e in listing ensures e.candidate != "" && e.count == Votes(rows, p, e.candidate) {
      assert e in multiset(c);
      var i :| 0 <= i < |c| && c[i] == e;
      CountOfEntry(c, i);
      TallyVotes(rows, p, e.candidate);
    }
  }

  /** Every candidate with a vote has an entry in a listing that holds the counter's entries. */
  lemma CandidatesListed(rows: seq<Record>, p: string, listing: seq<Entry>)
    requires p in TallyRows(rows) && multiset(listing) == multiset(TallyRows(rows)[p])
    ensures forall x :: x != "" && Votes(rows, p, x) > 0 ==> exists e :: e in listing && e.candidate == x
  {
    var c := TallyRows(rows)[p];
    forall x | x != "" && Votes(rows, p, x) > 0 ensures exists e :: e in listing && e.candidate == x {
      TallyVotes(rows, p, x);
      CountOfListed(c, x);
      var i :| 0 <= i < |c| && c[i].candidate == x && c[i].count == CountOf(c, x);
      assert c[i] in multiset(listing);
    }
  }
}

=== FILE: wrappers.dfy ===
/** Failure-compatible helper datatypes shared by the kiosk model. */
module Wrappers {

  /** A value that may be absent (Python's `None`). */
  datatype Option<+T> = None | Some(value: T)

  /** The outcome of an operation that may raise: its new value or the error it raised. */
  datatype Result<+T, +E> = Success(value: T) | Failure(error: E)
}
